=== FILE: README.md ===
# Bolt.new Assistant content script — a Dafny model

This project models the core of the content script `content.js` of the
Bolt.new Assistant (CodeGuardian) browser extension. It covers the logic the
script runs on the bolt.new page, with the DOM replaced by the facts that
logic reads:

- the message handler that answers the popup (`handleMessage`), including
  `sendChatMessage`, and the `isReading` / `currentOperation` state;
- `readLatestPlan`, which picks the latest assistant answer in the chat
  section, and `cleanMessageText`, which tidies it;
- `getFileElements` and `isValidFileName`, which build the de-duplicated,
  sorted file list;
- `getCurrentFileContent` and `shouldExcludeContent`, which read and filter
  one file's text;
- `readProjectCode`, which reads every file, builds the report and clears the
  reading state, except on the empty-list path;
- the heuristic message classifiers `isUserMessage`, `isUIElement`,
  `isAIMessage`, `isPlanMessage`, `getAIConfidence` and `getPlanConfidence`.

Modules, in dependency order:

| file | module | contents |
|---|---|---|
| text.dfy | `Text` | JavaScript string operations: `\s`, `trim`, `includes`, `split`, ASCII `toLowerCase`, `String(n)`, UTF-16 length |
| patterns.dfy | `Patterns` | each regular expression of the modelled functions, written out as a predicate over a position |
| classifier.dfy | `Classifier` | the six classifiers, with scores in integer tenths |
| exclusion.dfy | `Exclusion` | `shouldExcludeContent` and its rule table |
| filetree.dfy | `FileTree` | `isValidFileName`, the seen-name pass of `getFileElements`, the sort by name |
| latestplan.dfy | `LatestPlan` | `readLatestPlan`, `cleanMessageText` |
| projectcode.dfy | `ProjectCode` | `getCurrentFileContent`, the file loop, the report, `readProjectCode`, the reading state |
| dispatch.dfy | `Dispatch` | `handleMessage`, `sendChatMessage`, sequences of messages, overlapping reads |

Conventions:

- **Scores.** Decimal weights are integers in tenths: 0.8 is 8, the plan
  threshold 0.5 is 5, and the clamps 1.0 and 2.0 are 10 and 20. Every sum in
  the source adds at most a few one-decimal weights, so the integer sums
  decide the same comparisons. The ratio test `alpha / total < 0.1` becomes
  `alpha * 10 < total`.
- **Elements.** An element is reduced to what the code reads from it: its tag
  name and class attribute, its parent's class attribute, whether a
  descendant matches a selector, and the text of that descendant.
- **File buttons.** A file button is reduced to what clicking it and reading
  the editor yields (`FileProbe`).
- **The page.** Everything the handler reads from the page is a parameter
  (`Page`).

## Model

| member | source | states |
|---|---|---|
| Dispatch.HandleMessage | content.js:66-98 | Only `readProjectCode` changes the state. `ping` answers "Content script is ready". `getStatus` reports the current flags. `readLatestPlan`, `sendChatMessage` and `readProjectCode` reply with the result of their operation on the page as it is. An action outside the five known ones fails with "Unknown action". A read leaves the reader "reading" exactly when the file list came back empty. The state stays idle-or-reading. |
| Dispatch.ChooseInput | content.js:425-451 | The Bolt textarea wins when present. Otherwise the chosen input is the first fallback selector whose element is visible and enabled. There is none exactly when no fallback qualifies. |
| Dispatch.FirstUsableInput | content.js:443-450 | The first fallback textarea that is rendered and not disabled; every earlier one is unusable. |
| Dispatch.SendChatMessage | content.js:421-493 | The message is placed, with the fixed confirmation, exactly when the Bolt textarea exists or some fallback textarea is visible and enabled. Otherwise the reply is "Chat input field not found …", and a fault replies with its own message. |
| Dispatch.LastRead | content.js:88 | Index of the last `readProjectCode` message in a sequence, with no read after it; none exactly when no read occurs. |
| Dispatch.StateAfter | content.js:66-98 | One message moves the state only if it is `readProjectCode`. Such a read lands on reading exactly when it found no files, and on idle otherwise. |
| Dispatch.RunState | content.js:836-856 | When messages do not overlap, after any sequence of them the state is the one the last read left: reading exactly when that read found no files, idle otherwise. With no read at all the state is unchanged. |
| Dispatch.StatusAfterRun | content.js:74-79 | When messages do not overlap and the reader starts idle, `getStatus` reports a read in progress exactly when the most recent read found an empty file list. The flag set at line 840 is never cleared on that path. |
| Dispatch.ReplayState | content.js:836-985 | With reads overlapping, the state is set by the last event that decides it. A read beginning (line 840) sets reading, and a read ending on a clearing path (952, 963, 977) sets idle. An empty-list return (850-855) changes nothing. With no deciding event the state is unchanged. |
| Dispatch.RunIsSerialReplay | content.js:24-27 | Handling messages one at a time gives the same state as the interleaved model when each read ends before the next message arrives. |
| Dispatch.StatusDuringRead | content.js:74-79 | A `getStatus` answered after a read began, and before any read cleared the flag, reports `readProjectCode` in progress, whether or not that read will find files. |
| Dispatch.OverlappingReads | content.js:840-952 | A read that finds files and an empty read that returns while the first is still running end idle. Handled one after the other in arrival order, the same two reads would leave the reader reading. |
| LatestPlan.PrimaryTextIff | content.js:127-159 | A message is a candidate exactly when it is not a user message, has an `h3` reading "Bolt" once trimmed, has markdown content, and its trimmed markdown is longer than 50 characters. Its text is that trimmed markdown. |
| LatestPlan.PrimaryCandidates | content.js:124-160 | The candidates are in document order with increasing positions. Each carries its own message's text. Every qualifying message has a candidate. |
| LatestPlan.Latest | content.js:162-166 | The message selected after sorting by position, descending, is one of the candidates, and no candidate has a higher position. |
| LatestPlan.LatestIndex | content.js:162-166 | The stable descending sort puts first the candidate with the highest position. Among equals it puts first the earliest one: every candidate before it has a strictly lower position. |
| LatestPlan.LatestOfIncreasing | content.js:162-166 | With increasing positions, the selected message is the last candidate. |
| LatestPlan.LatestIsLastQualifying | content.js:124-166 | The selected text is the trimmed markdown of the last qualifying message in the document. |
| LatestPlan.LastBoltDiv | content.js:173-190 | The fallback takes the last `div` with a "Bolt" header, no `self-end` class and markdown content. There is none exactly when no `div` qualifies. |
| LatestPlan.CleanMessageTextShape | content.js:412-419 | The cleaned text has no whitespace at either end. Its only whitespace is single spaces, never two in a row. Its non-space characters are a tail of the input's: cleaning only removes characters. |
| LatestPlan.ReadLatestPlan | content.js:100-221 | A missing chat section gives its fixed error, and a fault gives its own message. Otherwise a plan is found exactly when the chosen text is non-empty, and every error is "No AI messages found …". A plan is at most 3000 characters plus the truncation marker. |
| LatestPlan.PlanFromLastMessage | content.js:162-204 | When some message passes the primary filter, the plan is the cleaned and truncated text of the last such message. |
| LatestPlan.PlanFromFallback | content.js:170-215 | When no message passes the primary filter, the fallback decides, with no length limit. Without a Bolt `div`, or when its text is blank, the result is "No AI messages found …". |
| Text.Trim | content.js:714 | `trim` removes leading and trailing whitespace only. The result is the input with whitespace cut from both ends. |
| Text.TrimIdempotent | content.js:697-699 | Trimming twice changes nothing, so the editor text (already trimmed) reaches the filter unchanged. |
| Text.Contains | content.js:636-637 | `includes` holds exactly when the needle occurs at some index. |
| Text.SplitJoin | content.js:758 | `split('\n')` loses nothing: joining the pieces gives the text back. |
| Text.SplitCount | content.js:758 | `split('\n')` gives one more piece than there are newlines. |
| Text.KeepTrim | content.js:714 | `trim` removes whitespace only: the visible characters are those of the input, in order. |
| Text.NatToStringValue | content.js:916 | The decimal rendering of a count reads back as that count. |
| Text.Truncate | content.js:200-203 | Cutting to a limit keeps the first `max` characters and appends the marker only when the text is longer. A short text is unchanged. The same cut, with the 15000-character limit and its note, ends the report at lines 945-949. |
| Patterns.CollapseSpaces | content.js:415 | `replace(/\s+/g, ' ')` leaves only single spaces, never two in a row, and keeps every non-space character in order. |
| Patterns.CollapseSpacesScan | content.js:415 | Collapsing agrees with a left-to-right reading: a whitespace character that opens a run becomes one space in its place, one that continues a run vanishes, and every other character is kept. |
| Patterns.CodeSpanCount | content.js:370 | A global match of `` `[^`]+` `` finds at most a third as many spans as there are characters. |
| Patterns.LabelPrefixLength | content.js:416 | `^\s*[\w\s]*:\s*` matches exactly when the longest run of word and space characters is followed by a colon. It then removes that run, the colon and all the whitespace after it, so a non-space character follows. Otherwise nothing is removed. |
| Patterns.NamePrefixLength | content.js:417 | `^(Bolt\|AI\|Assistant)[:\s]+` matches exactly when the text opens with one of the three names, in any ASCII case, followed by a colon or whitespace. It then removes the name and the whole run of colons and whitespace after it. Otherwise nothing is removed. |
| Classifier.ShortQuestionIsUser | content.js:224-243 | Any text shorter than 150 characters containing a question mark is a user message, whatever the element. |
| Classifier.AIMessageByLength | content.js:271-303 | `isAIMessage` holds exactly when the class mentions an AI indicator or the text is longer than 80 characters. The content checks never decide. |
| Classifier.PlanThreshold | content.js:305-349 | A message is a plan exactly when its feature weights sum to at least 0.5. A plan keyword or a numbered step alone suffices. Otherwise the listed pairs of weaker features are needed. |
| Classifier.TableScore | content.js:309-348 | The weight table read as data gives the straight-line score of the source. |
| Classifier.SatisfiedWeight | content.js:309-348 | The weight of the satisfied features is at most 0.8 per feature. |
| Classifier.AIConfidence | content.js:375-395 | The AI confidence is the sum of the weights of the signals present while that sum is at most 1.0, and 1.0 from there on. Both "assistant" and "ai" in the class give exactly 1.0. |
| Classifier.PlanConfidence | content.js:351-373 | The plan confidence lies between the AI confidence and 2.0. It is the AI confidence plus the plan boosts while that sum is at most 2.0, and 2.0 from there on. |
| Classifier.UIElementCases | content.js:245-269 | A `button`, `input`, `textarea` or `select` tag, in any case, or a UI word in the class makes an element UI whatever its text. Otherwise it is UI exactly when the text is a capitalised label under 30 characters, so 30 characters or more are never UI. The parent's class plays no part. |
| Classifier.UIExamples | content.js:245-269 | A `BUTTON` tag and a `Top-Nav` class are UI for any text, "Open file" on a plain `div` is UI, and 30 or more characters on a `div` whose parent is `prose` are not. |
| Classifier.ClassCaseIrrelevant | content.js:226-228 | Upper-casing the class attributes changes no classifier answer and no confidence. |
| Classifier.NumberedPlanIsPlan | content.js:328-348 | A numbered list item with a bold capitalised step matches `\d+\.\s*\*?\*?[A-Z]`, whose weight 0.6 alone reaches the 0.5 threshold, so the text is recognised as a plan. |
| Classifier.QuestionIsUserNotAI | content.js:224-303 | A short question on a plain `div` is a user message and not an AI message. |
| Exclusion.AcceptedText | content.js:713-768 | Text that passes the filter has at least 10 characters once trimmed. It is not a shell command, not a binary dump over 50 characters, and not mostly symbols. Over 100 characters it has at least 3 distinct visible characters, and a line over 500 characters comes with reasonable structure. |
| Exclusion.FirstFiring | content.js:713-768 | The rule returned fires and every rule before it in the table does not. There is none exactly when no rule fires. |
| Exclusion.ExclusionByTable | content.js:713-768 | The chain of tests excludes a text exactly when some rule of the table fires on it. The order decides only the reason. |
| Exclusion.ExcludeTrimmed | content.js:714 | Trimming before filtering changes nothing. |
| Exclusion.BinaryExcluded | content.js:737-740 | Text of binary digits and whitespace longer than 50 characters once trimmed is excluded. |
| FileTree.ValidFileNameIff | content.js:632-641 | A name is valid exactly when it has 1 to 100 characters, contains none of the six navigation labels, and uses only `[a-zA-Z0-9._\-\/\\]`. |
| FileTree.ValidNameIsTrimmed | content.js:632-641 | A valid name has no whitespace, so trimming leaves it unchanged. |
| FileTree.Collect | content.js:570-618 | After the three loops, the seen set is exactly the names collected. No name appears twice and every entry is valid. Each entry is the first candidate carrying its name, and every valid name's first candidate is kept. |
| FileTree.CollectStep | content.js:572-575 | One visit of a candidate keeps that invariant. |
| FileTree.Insert | content.js:625 | Inserting into a name-sorted list keeps it sorted. It adds exactly the one entry, and it keeps names distinct when the new name is new. |
| FileTree.SortByName | content.js:625 | The sort returns a name-sorted permutation with the same names, and keeps names distinct. |
| FileTree.LexLeTotal | content.js:625 | The name order is total. |
| FileTree.LexLeTrans | content.js:625 | The name order is transitive. |
| FileTree.LexLeAntisymmetric | content.js:625 | The name order is antisymmetric. |
| FileTree.GetFileElements | content.js:548-627 | The file list holds each valid name once, sorted. Each entry is the first candidate that carried its name, and no valid name is missed. |
| FileTree.DuplicateKeepsFirst | content.js:572-575 | When two candidates share a valid name, the list holds it once, with the first candidate's button. |
| FileTree.FirstIndexOfName | content.js:572-575 | The first candidate carrying a name. |
| ProjectCode.EditorContent | content.js:644-711 | The editor text is that of the first strategy yielding non-blank text, trimmed. There is none exactly when every strategy is blank or missing. |
| ProjectCode.EditorContentTrimmed | content.js:697-699 | What the editor reader returns is already trimmed. |
| ProjectCode.ReadFileStored | content.js:876-902 | A file is stored exactly when its editor text exists and passes the filter. What is stored is that text. Excluded files are exactly those whose text the filter rejects. |
| ProjectCode.Put | content.js:889 | `Map.set` adds a new key at the end and keeps an existing key in place with the new value. Keys stay distinct, and no other entry changes. |
| ProjectCode.KeysInStoreOrder | content.js:889 | The map lists its keys in the order their files were first stored, each once. That is the order of the report's file list and sections. |
| ProjectCode.ReadAll | content.js:860-910 | The loop visits every file. The success count is the number of stored files and the errors are the failed files' messages ("No content found for …", "Cannot access …", "Error reading …: …"), one per failed file, in file order. The map's keys are exactly the stored names, each with content some file of that name stored. |
| ProjectCode.ReadFiles | content.js:868-910 | The `for` loop computes the same counts and the same map as the fold. |
| ProjectCode.StoredContentAccepted | content.js:886-891 | Every stored content is non-empty and accepted by the filter. |
| ProjectCode.Partition | content.js:874-906 | Successes, failures and exclusions add up to the number of files. |
| ProjectCode.DistinctNamesNoOverwrite | content.js:889-890 | With distinct file names the map size equals the success count. |
| ProjectCode.ReportHasEverySection | content.js:926-932 | Before truncation, the report contains each stored file's section: its name between rules, then its content. |
| ProjectCode.Step | content.js:876-906 | One turn of the loop counts one success for a stored file. A failed file appends its own message to the errors, and any other file leaves them alone. It puts the stored content into the map, and leaves the map alone otherwise. |
| ProjectCode.Reply | content.js:913-970 | The reply carries code exactly when the map is non-empty. The code is the report when it has at most 15000 characters. Otherwise it is the report's first 15000 characters followed by the truncation note. `filesFound` is the size of the map and `totalFiles` the number of listed files. Otherwise the error is "Failed to read any files." with the collected errors and the number of files attempted. |
| ProjectCode.ReadListed | content.js:913-970 | A reply with code reports between 1 and the number of listed files as found. |
| ProjectCode.ReplyHasEveryStoredFile | content.js:926-949 | With distinct names and a report that fits in 15000 characters, the reply holds the section of every stored file, with the content that file stored. |
| ProjectCode.ReadProjectCode | content.js:836-985 | The reader is left reading exactly when the file list is empty, and idle on every other path. A fault gives "Critical error: " and the message. An empty file list gives "No files found …", and a non-empty one gives the reply for that list. A success has between 1 and the number of listed files found, and the code is at most 15000 characters plus the note. |
| ProjectCode.SomeStored | content.js:915 | The map is non-empty exactly when some file was stored. |
| ProjectCode.SuccessIffStored | content.js:915-969 | For a non-empty list of distinct names, the read succeeds exactly when some listed file was stored. The number of files found is then the number stored. |
| ProjectCode.ListedReadsAll | content.js:848-870 | A non-empty file list is read in full, with distinct names, and the reader ends idle. |
| ProjectCode.EmptyListingLeavesReading | content.js:848-856 | An empty file list returns "No files found …" and leaves the state reading. |

## Left out

- DOM access, clicking, timers, the progress overlay, the notification
  overlay, console logging and `chrome.runtime` messaging. Their effects are
  replaced by the parameters described above.
- `switchToCodeMode`, `getElementPosition` and `isActualCode`. None of them
  decides what is returned to the popup. `isActualCode` is never called.
- The `popup.js` and `background.js` scripts.
- Lengths are counted in characters (Unicode scalar values). JavaScript counts
  UTF-16 code units, so a character outside the Basic Multilingual Plane
  counts 2 there and 1 here, in every length test and in every truncation.
  The one exception is the "Total characters" line of the report, which is
  computed in UTF-16 units (`Text.Utf16Length`).
- `toLowerCase` is modelled on ASCII letters only. The regular expressions'
  `i` flag outside unicode mode folds only ASCII against the ASCII patterns,
  so those tests are exact. For class names containing non-ASCII capitals
  (such as U+0130 or U+212A, which lower-case to ASCII letters), the
  `includes` tests on the lower-cased class may differ.
- `localeCompare` is replaced by lexicographic order on character codes. File
  names are ASCII once valid, but the locale's collation still orders case
  differently (`"b" < "C"` under a locale, `"C" < "b"` here).
- `handleMessage`'s outer `catch` is not modelled. Each operation catches its
  own errors, so only a fault in the handler itself could reach it.
- ProjectCode.ReadProjectCode: an exception that escapes the per-file
  handling (finding files, showing or hiding progress) is modelled as a fault
  of the listing, before any file is read. Either way the reply is
  "Critical error: …" and the state is cleared.
- Dispatch.RunState / Dispatch.StatusAfterRun: these assume each message is
  answered before the next arrives. The listener does not await
  `handleMessage`, and `readProjectCode` gives way at its `await`s (lines
  845-846, 881 and 909), so messages can overlap. The overlapping case is
  `Dispatch.ReplayState`, with `Dispatch.RunIsSerialReplay` relating the two.
- Dispatch.HandleMessage: the `getStatus` reply is stated for idle and
  reading states, the only states the reader reaches.
- `sendChatMessage`: writing the text into the input and dispatching the
  `input`/`change` events is not modelled. Only the choice of input and the
  reply are modelled.
- Patterns.CodeSpanCount: only an upper bound on the number of matches is
  stated. The classifier only compares the count with 2, and the matching
  itself is the body.
- Classifier.SatisfiedWeight: only the bound per feature is stated here. The
  equality with the source's score is `Classifier.TableScore`.

=== FILE: classifier.dfy ===
/** The heuristic message classifiers of the content script.

  An element is reduced to the three things the classifiers read: its tag
  name, its class attribute and its parent's class attribute. Scores are
  kept in integer tenths: a weight of 0.8 is 8, the plan threshold 0.5 is 5,
  the clamps 1.0 and 2.0 are 10 and 20.
 */
module Classifier {
  import opened Text
  import opened Patterns

  /** A DOM element as the classifiers see it; a missing class attribute or a
      missing parent is the empty string, as the content script's `|| ''` makes it. */
  datatype Element = Element(tagName: string, className: string, parentClassName: string)

  /** `indicator` occurs in the lower-cased class of the element or of its parent. */
  predicate ClassMentions(e: Element, indicator: string) {
    Contains(Lower(e.className), indicator) || Contains(Lower(e.parentClassName), indicator)
  }

  predicate ClassMentionsAny(e: Element, indicators: seq<string>) {
    exists n :: 0 <= n < |indicators| && ClassMentions(e, indicators[n])
  }

  function Min(a: nat, b: nat): nat { if a <= b then a else b }

  /* ---------- isUserMessage ---------- */

  const UserIndicators: seq<string> := ["user", "human", "you said", "your message", "input", "prompt"]

  /** A short question or request, the way users write. */
  predicate LooksLikeRequest(text: string) {
    |text| < 150 &&
    (Contains(text, "?") || StartsWith(text, "Can you") || StartsWith(text, "Please") || StartsWith(text, "How"))
  }

  predicate IsUserMessage(e: Element, text: string) {
    ClassMentionsAny(e, UserIndicators) || LooksLikeRequest(text)
  }

  /** Any text shorter than 150 characters that contains a question mark is
      taken for a user message, whatever the element. */
  lemma ShortQuestionIsUser(e: Element, text: string, k: nat)
    requires |text| < 150 && k < |text| && text[k] == '?'
    ensures IsUserMessage(e, text)
  {
    assert OccursAt(text, "?", k);
  }

  /* ---------- isUIElement ---------- */

  const ControlTags: seq<string> := ["button", "input", "textarea", "select"]
  const UIIndicators: seq<string> := ["button", "menu", "nav", "header", "footer", "sidebar", "toolbar", "tab", "panel"]

  predicate IsUIElement(e: Element, text: string) {
    || Lower(e.tagName) in ControlTags
    || ContainsAnyOf(Lower(e.className), UIIndicators)
    || (|text| < 30 && IsCapitalisedLabel(text))
  }

  /** What decides `isUIElement`: a form control's tag or a UI word in the
      class makes any element UI; otherwise only a short capitalised label
      is. The parent's class plays no part. */
  lemma UIElementCases(e: Element, text: string)
    ensures Lower(e.tagName) in ControlTags ==> IsUIElement(e, text)
    ensures (exists n :: 0 <= n < |UIIndicators| && Contains(Lower(e.className), UIIndicators[n])) ==> IsUIElement(e, text)
    ensures Lower(e.tagName) !in ControlTags && !ContainsAnyOf(Lower(e.className), UIIndicators) ==>
      (IsUIElement(e, text) <==> |text| < 30 && IsCapitalisedLabel(text))
    ensures |text| >= 30 && Lower(e.tagName) !in ControlTags && !ContainsAnyOf(Lower(e.className), UIIndicators) ==>
      !IsUIElement(e, text)
    ensures forall p :: IsUIElement(Element(e.tagName, e.className, p), text) <==> IsUIElement(e, text)
  {
  }

  /** Three elements as the page shows them: an upper-case `BUTTON` tag and
      a `Top-Nav` class are UI whatever the text, a capitalised label on a
      plain `div` is UI, and long prose is not. */
  lemma UIExamples(text: string)
    ensures IsUIElement(Element("BUTTON", "", ""), text)
    ensures IsUIElement(Element("div", "Top-Nav", ""), text)
    ensures IsUIElement(Element("div", "", ""), "Open file")
    ensures |text| >= 30 ==> !IsUIElement(Element("div", "", "prose"), text)
  {
    assert Lower("BUTTON") == "button";
    assert Lower("Top-Nav") == "top-nav";
    ContainsAt("top-nav", "nav", 4);
    assert UIIndicators[2] == "nav";
    assert Lower("") == "";
    assert forall n :: 0 <= n < |UIIndicators| ==> !Contains("", UIIndicators[n]);
  }

  /* ---------- isAIMessage ---------- */

  const AIIndicators: seq<string> := ["assistant", "ai", "bot", "response", "answer"]

  predicate IsStructuredText(text: string) {
    ContainsAnyOf(text, ["\n", "\U{2022}", "1.", "-"])
  }

  predicate IsTechnicalText(text: string) {
    ContainsAnyOf(text, ["```", "function", "import", "class"])
  }

  predicate IsAssistantVoice(text: string) {
    ContainsAnyOf(text, ["I ", "I'll ", "Let me ", "Here's "])
  }

  predicate IsAIMessage(e: Element, text: string) {
    if ClassMentionsAny(e, AIIndicators) then true
    else if |text| > 100 && (IsStructuredText(text) || IsTechnicalText(text) || IsAssistantVoice(text)) then true
    else |text| > 80
  }

  /** The content checks of `isAIMessage` never decide anything: every text
      longer than 100 characters is also longer than 80, so the result is an
      AI class indicator or a length over 80. */
  lemma AIMessageByLength(e: Element, text: string)
    ensures IsAIMessage(e, text) <==> ClassMentionsAny(e, AIIndicators) || |text| > 80
  {
  }

  /* ---------- isPlanMessage ---------- */

  const PlanIndicators: seq<string> := [
    "the plan", "plan:", "steps:", "action plan", "here's what", "to fix this",
    "solution:", "approach:", "strategy:", "implementation:", "next steps", "recommended steps"
  ]

  const PlanActionWords: seq<string> := [
    "create", "modify", "update", "change", "add", "remove", "fix", "implement", "configure", "setup", "install"
  ]

  const PlanExtensions: seq<string> := ["js", "ts", "html", "css", "sql", "json", "md"]

  /** The seven features `isPlanMessage` scores. */
  datatype PlanFeature =
    | PlanKeywords | NumberedSteps | BulletPoints | ActionWords | Headings | FileReferences | LongText

  predicate HasNumberedSteps(text: string) {
    Test(text, NumberedStepAt)
  }

  predicate HasBoldHeading(text: string) {
    Test(text, BoldHeadingAt)
  }

  predicate HasPlanFeature(text: string, f: PlanFeature) {
    match f
    case PlanKeywords => ContainsAnyOf(Lower(text), PlanIndicators)
    case NumberedSteps => HasNumberedSteps(text)
    case BulletPoints => Contains(text, "- ") || Contains(text, "\U{2022} ")
    case ActionWords => Test(text, (s: seq<char>, i: nat) => WordAt(s, i, PlanActionWords))
    case Headings => Contains(text, "##") || Contains(text, "###") || HasBoldHeading(text)
    case FileReferences =>
      Test(text, (s: seq<char>, i: nat) => ExtensionAt(s, i, PlanExtensions))
      || Contains(text, "`") || Contains(text, "```")
    case LongText => |text| > 500
  }

  /** Weight of a feature in tenths (0.8, 0.6, 0.3, 0.4, 0.3, 0.2, 0.2). */
  function PlanWeight(f: PlanFeature): nat {
    match f
    case PlanKeywords => 8
    case NumberedSteps => 6
    case BulletPoints => 3
    case ActionWords => 4
    case Headings => 3
    case FileReferences => 2
    case LongText => 2
  }

  function WeightIf(text: string, f: PlanFeature): nat {
    Bonus(HasPlanFeature(text, f), PlanWeight(f))
  }

  /** `planScore` of `isPlanMessage`, in tenths. */
  function PlanScore(text: string): nat {
    WeightIf(text, PlanKeywords) + WeightIf(text, NumberedSteps) + WeightIf(text, BulletPoints)
    + WeightIf(text, ActionWords) + WeightIf(text, Headings) + WeightIf(text, FileReferences)
    + WeightIf(text, LongText)
  }

  /** The features in the order the content script adds them. */
  const PlanFeatures: seq<PlanFeature> :=
    [PlanKeywords, NumberedSteps, BulletPoints, ActionWords, Headings, FileReferences, LongText]

  /** Sum of the weights of the features of `fs` that `text` has: the rule
      table read as data. */
  function SatisfiedWeight(text: string, fs: seq<PlanFeature>): (w: nat)
    ensures w <= 8 * |fs|
  {
    if |fs| == 0 then 0 else WeightIf(text, fs[0]) + SatisfiedWeight(text, fs[1..])
  }

  /** `isPlanMessage`: the score reaches the 0.5 threshold. The element is not read. */
  predicate IsPlanMessage(e: Element, text: string) {
    PlanScore(text) >= 5
  }

  /** Reading the rule table as data gives the content script's straight-line sum. */
  lemma {:induction false} TableScore(text: string)
    ensures SatisfiedWeight(text, PlanFeatures) == PlanScore(text)
  {
    var fs := PlanFeatures;
    assert SatisfiedWeight(text, fs[7..]) == 0;
    assert SatisfiedWeight(text, fs[6..]) == WeightIf(text, LongText) by {
      assert fs[6..][1..] == fs[7..];
    }
    assert SatisfiedWeight(text, fs[5..]) == WeightIf(text, FileReferences) + WeightIf(text, LongText) by {
      assert fs[5..][1..] == fs[6..];
    }
    assert SatisfiedWeight(text, fs[4..]) == WeightIf(text, Headings) + SatisfiedWeight(text, fs[5..]) by {
      assert fs[4..][1..] == fs[5..];
    }
    assert SatisfiedWeight(text, fs[3..]) == WeightIf(text, ActionWords) + SatisfiedWeight(text, fs[4..]) by {
      assert fs[3..][1..] == fs[4..];
    }
    assert SatisfiedWeight(text, fs[2..]) == WeightIf(text, BulletPoints) + SatisfiedWeight(text, fs[3..]) by {
      assert fs[2..][1..] == fs[3..];
    }
    assert SatisfiedWeight(text, fs[1..]) == WeightIf(text, NumberedSteps) + SatisfiedWeight(text, fs[2..]) by {
      assert fs[1..][1..] == fs[2..];
    }
    assert SatisfiedWeight(text, fs) == WeightIf(text, PlanKeywords) + SatisfiedWeight(text, fs[1..]);
  }

  /** Which sets of features reach the threshold, as plain arithmetic on the
      weights 8, 6, 3, 4, 3, 2, 2. */
  lemma ThresholdCases(k: bool, n: bool, b: bool, a: bool, h: bool, f: bool, l: bool)
    ensures Bonus(k, 8) + Bonus(n, 6) + Bonus(b, 3) + Bonus(a, 4) + Bonus(h, 3) + Bonus(f, 2) + Bonus(l, 2) >= 5
        <==> k || n || ((b || h) && (a || f || l || (b && h))) || (a && (f || l))
  {
  }

  /** A message is a plan exactly when the weights of the features it has
      add up to at least 5 tenths; so a plan keyword alone (8) or a numbered
      step alone (6) is enough, and otherwise two of the weaker features are
      needed, unless they are just a file reference and length (4). */
  lemma PlanThreshold(e: Element, text: string)
    ensures IsPlanMessage(e, text) <==> SatisfiedWeight(text, PlanFeatures) >= 5
    ensures HasPlanFeature(text, PlanKeywords) ==> IsPlanMessage(e, text)
    ensures HasPlanFeature(text, NumberedSteps) ==> IsPlanMessage(e, text)
    ensures IsPlanMessage(e, text) <==>
      var b, a, h, f, l := HasPlanFeature(text, BulletPoints), HasPlanFeature(text, ActionWords),
                           HasPlanFeature(text, Headings), HasPlanFeature(text, FileReferences),
                           HasPlanFeature(text, LongText);
      || HasPlanFeature(text, PlanKeywords) || HasPlanFeature(text, NumberedSteps)
      || ((b || h) && (a || f || l || (b && h)))
      || (a && (f || l))
  {
    TableScore(text);
    ThresholdCases(HasPlanFeature(text, PlanKeywords), HasPlanFeature(text, NumberedSteps),
                   HasPlanFeature(text, BulletPoints), HasPlanFeature(text, ActionWords),
                   HasPlanFeature(text, Headings), HasPlanFeature(text, FileReferences),
                   HasPlanFeature(text, LongText));
  }

  /* ---------- getAIConfidence / getPlanConfidence ---------- */

  function Bonus(holds: bool, tenths: nat): nat { if holds then tenths else 0 }

  /** The unclamped sum of `getAIConfidence`. */
  function RawAIConfidence(e: Element, text: string): nat {
    Bonus(ClassMentions(e, "assistant"), 8)
    + Bonus(ClassMentions(e, "ai"), 7)
    + Bonus(ClassMentions(e, "response"), 6)
    + Bonus(ClassMentions(e, "prose"), 4)
    + Bonus(Contains(text, "```"), 3)
    + Bonus(Contains(text, "I ") || Contains(text, "I'll ") || Contains(text, "Let me "), 3)
    + Bonus(|text| > 300, 2)
    + Bonus(Contains(text, "\n\n"), 1)
    + Bonus(Contains(text, "Here's") || Contains(text, "You can"), 2)
  }

  /** `getAIConfidence` in tenths: clamped to 1.0. */
  function AIConfidence(e: Element, text: string): (c: nat)
    ensures c <= 10
    ensures c <= RawAIConfidence(e, text)
    ensures ClassMentions(e, "assistant") && ClassMentions(e, "ai") ==> c == 10
    ensures RawAIConfidence(e, text) <= 10 ==> c == RawAIConfidence(e, text)
    ensures RawAIConfidence(e, text) >= 10 ==> c == 10
  {
    Min(RawAIConfidence(e, text), 10)
  }

  const PlanConfidenceExtensions: seq<string> := ["js", "ts", "html", "css", "sql", "json"]
  const ConfidenceActionWords: seq<string> := ["modify", "create", "update", "fix", "implement"]

  /** The plan-specific boosts `getPlanConfidence` adds to the AI confidence. */
  function PlanBoost(text: string): nat {
    var lower := Lower(text);
    Bonus(Contains(lower, "the plan") || Contains(lower, "plan:"), 9)
    + Bonus(Contains(lower, "steps:") || Contains(lower, "action plan"), 8)
    + Bonus(Contains(lower, "solution:") || Contains(lower, "to fix this"), 7)
    + Bonus(HasNumberedSteps(text), 6)
    + Bonus(Contains(text, "##") || HasBoldHeading(text), 4)
    + Bonus(Test(text, (s: seq<char>, i: nat) => WordAt(s, i, ConfidenceActionWords)), 3)
    + Bonus(Test(text, (s: seq<char>, i: nat) => ExtensionAt(s, i, PlanConfidenceExtensions)), 3)
    + Bonus(Contains(text, "```") || CodeSpanCount(text) > 2, 2)
  }

  /** `getPlanConfidence` in tenths: the AI confidence plus the plan boosts,
      clamped to 2.0; it never falls below the AI confidence it starts from. */
  function PlanConfidence(e: Element, text: string): (c: nat)
    ensures AIConfidence(e, text) <= c <= 20
    ensures c == 20 || c == AIConfidence(e, text) + PlanBoost(text)
    ensures c <= AIConfidence(e, text) + PlanBoost(text)
    ensures AIConfidence(e, text) + PlanBoost(text) <= 20 ==> c == AIConfidence(e, text) + PlanBoost(text)
  {
    Min(AIConfidence(e, text) + PlanBoost(text), 20)
  }

  /* ---------- properties relating the classifiers ---------- */

  /** The classifiers read class names through `toLowerCase`, so writing the
      class attributes in capitals changes none of their answers. */
  lemma ClassCaseIrrelevant(e: Element, text: string)
    ensures var u := Element(e.tagName, Upper(e.className), Upper(e.parentClassName));
      && (IsUserMessage(u, text) <==> IsUserMessage(e, text))
      && (IsUIElement(u, text) <==> IsUIElement(e, text))
      && (IsAIMessage(u, text) <==> IsAIMessage(e, text))
      && AIConfidence(u, text) == AIConfidence(e, text)
      && PlanConfidence(u, text) == PlanConfidence(e, text)
  {
    LowerOfUpper(e.className);
    LowerOfUpper(e.parentClassName);
  }

  /** A plan message on the page, the shape the assistant answers in. */
  lemma NumberedPlanIsPlan(e: Element)
    ensures IsPlanMessage(e, "1. **Create schema**\n" + "2. Add index\n" + "```sql\nCREATE TABLE...\n```")
  {
    var t := "1. **Create schema**\n" + "2. Add index\n" + "```sql\nCREATE TABLE...\n```";
    assert t[0] == '1' && t[1] == '.' && t[2] == ' ' && t[3] == '*';
    assert t[4] == '*';
    assert t[5] == 'C';
    assert Span(t[1..], IsDigit) == 0;
    assert t[0..] == t;
    assert Span(t, IsDigit) == 1;
    assert Span(t[3..], IsSpace) == 0;
    assert Span(t[2..], IsSpace) == 1;
    assert NumberedStepAt(t, 0);
    PlanThreshold(e, t);
  }

  /** A short question is a user message and not an AI message. */
  lemma QuestionIsUserNotAI()
    ensures IsUserMessage(Element("div", "", ""), "Can you fix this?")
    ensures !IsAIMessage(Element("div", "", ""), "Can you fix this?")
  {
    var e := Element("div", "", "");
    ShortQuestionIsUser(e, "Can you fix this?", 16);
    AIMessageByLength(e, "Can you fix this?");
    assert !ClassMentionsAny(e, AIIndicators) by {
      forall n | 0 <= n < |AIIndicators| ensures !ClassMentions(e, AIIndicators[n]) {
        assert |Lower(e.className)| == 0;
      }
    }
  }
}

=== FILE: dispatch.dfy ===
/** The message handler of the content script (`handleMessage`) and
  `sendChatMessage`, over the state that `readProjectCode` keeps.

  The page is a parameter: what the chat section, the file tree and the chat
  input look like when a message arrives.
 */
module Dispatch {
  import opened Text
  import opened FileTree
  import opened LatestPlan
  import opened ProjectCode

  /** A message from the popup: its `action` and, for `sendChatMessage`, its
      `message` text. */
  datatype Message = Message(action: string, text: string)

  /** A `textarea` found by a fallback selector: whether it is rendered
      (`offsetParent !== null`) and whether it is disabled. */
  datatype Textarea = Textarea(visible: bool, disabled: bool)

  /** The chat input as `sendChatMessage` finds it: whether the Bolt textarea
      (by its placeholder) exists, and what each of the five fallback
      selectors returns, in order. */
  datatype InputPage =
    | InputPage(boltTextarea: bool, fallbacks: seq<Option<Textarea>>)
    | InputFault(message: string)       // an exception while filling the input

  /** Everything the handler reads from the page. */
  datatype Page = Page(chat: ChatPage, files: Listing, input: InputPage)

  /** The replies `sendResponse` receives. */
  datatype Response =
    | Ready(message: string)
    | Status(isReading: bool, currentOperation: Option<string>)
    | Plan(plan: string)
    | Code(code: string, filesFound: nat, totalFiles: nat)
    | Failure(error: string)

  const ReadyMessage: string := "Content script is ready"
  const UnknownAction: string := "Unknown action"
  const MessagePlaced: string :=
    "Message placed in chat input field. Review and press Enter or click send when ready."
  const ChatInputMissing: string :=
    "Chat input field not found. Make sure you're on the main Bolt.new page."

  /* ---------- sendChatMessage ---------- */

  /** Which input receives the message. */
  datatype InputChoice = BoltInput | FallbackInput(index: nat)

  predicate UsableInput(t: Option<Textarea>) { t.Some? && t.value.visible && !t.value.disabled }

  /** The Bolt textarea when present, otherwise the first fallback selector
      whose element is visible and enabled. */
  function ChooseInput(boltTextarea: bool, fallbacks: seq<Option<Textarea>>): (c: Option<InputChoice>)
    ensures boltTextarea ==> c == Some(BoltInput)
    ensures c.None? <==> !boltTextarea && forall i :: 0 <= i < |fallbacks| ==> !UsableInput(fallbacks[i])
    ensures c.Some? && c.value.FallbackInput? ==>
      && !boltTextarea
      && c.value.index < |fallbacks| && UsableInput(fallbacks[c.value.index])
      && forall j :: 0 <= j < c.value.index ==> !UsableInput(fallbacks[j])
  {
    if boltTextarea then Some(BoltInput)
    else
      var k := FirstUsableInput(fallbacks);
      if k < |fallbacks| then Some(FallbackInput(k)) else None
  }

  /** Index of the first usable fallback, or the number of fallbacks. */
  function FirstUsableInput(ts: seq<Option<Textarea>>): (k: nat)
    ensures k <= |ts|
    ensures k < |ts| ==> UsableInput(ts[k])
    ensures forall j :: 0 <= j < k ==> !UsableInput(ts[j])
  {
    if |ts| == 0 || UsableInput(ts[0]) then 0
    else
      var k := FirstUsableInput(ts[1..]);
      assert forall j :: 1 <= j < |ts| ==> ts[j] == ts[1..][j - 1];
      1 + k
  }

  /** `sendChatMessage`: the message goes into the chosen input, which is
      left for the user to send. */
  function SendChatMessage(input: InputPage): (r: Response)
    ensures r.Ready? || r.Failure?
    ensures input.InputFault? ==> r == Failure(input.message)
    ensures input.InputPage? ==>
      (r == Ready(MessagePlaced) <==>
         input.boltTextarea || exists i :: 0 <= i < |input.fallbacks| && UsableInput(input.fallbacks[i]))
    ensures input.InputPage? && !r.Ready? ==> r == Failure(ChatInputMissing)
  {
    match input
    case InputFault(message) => Failure(message)
    case InputPage(bolt, fallbacks) =>
      if ChooseInput(bolt, fallbacks).Some? then Ready(MessagePlaced) else Failure(ChatInputMissing)
  }

  /* ---------- handleMessage ---------- */

  /** `getStatus`: `isReading || false` and `currentOperation || null`. */
  function StatusOf(s: ContentState): Response {
    var op := if s.currentOperation.Some? && s.currentOperation.value != "" then s.currentOperation else None;
    Status(s.isReading, op)
  }

  /** The reply `readLatestPlan` sends. */
  function PlanReply(p: PlanResult): Response {
    match p
    case PlanFound(plan) => Plan(plan)
    case PlanError(error) => Failure(error)
  }

  /** The reply `readProjectCode` sends. */
  function CodeReply(c: CodeResult): Response {
    match c
    case CodeRead(code, found, total) => Code(code, found, total)
    case CodeError(error) => Failure(error)
  }

  /** `handleMessage`: the reply to one message and the state after it. */
  function HandleMessage(s: ContentState, m: Message, page: Page): (r: (Response, ContentState))
    ensures m.action != "readProjectCode" ==> r.1 == s
    ensures WellFormed(s) ==> WellFormed(r.1)
    ensures m.action == "readProjectCode" ==> WellFormed(r.1)
    ensures m.action == "ping" ==> r.0 == Ready(ReadyMessage)
    ensures m.action == "getStatus" && WellFormed(s) ==>
      r.0 == Status(s.isReading, s.currentOperation)
    ensures m.action !in {"ping", "getStatus", "readLatestPlan", "sendChatMessage", "readProjectCode"} ==>
      r.0 == Failure(UnknownAction)
    ensures m.action == "readProjectCode" ==>
      (r.1 == Reading <==> page.files.Listed? && GetFileElements(page.files.discovery) == [])
    ensures m.action == "readLatestPlan" ==> r.0 == PlanReply(ReadLatestPlan(page.chat))
    ensures m.action == "sendChatMessage" ==> r.0 == SendChatMessage(page.input)
    ensures m.action == "readProjectCode" ==>
      r == (CodeReply(ReadProjectCode(page.files).0), ReadProjectCode(page.files).1)
  {
    match m.action
    case "ping" => (Ready(ReadyMessage), s)
    case "getStatus" => (StatusOf(s), s)
    case "readLatestPlan" => (PlanReply(ReadLatestPlan(page.chat)), s)
    case "sendChatMessage" => (SendChatMessage(page.input), s)
    case "readProjectCode" =>
      var (result, s') := ReadProjectCode(page.files);
      (CodeReply(result), s')
    case _ => (Failure(UnknownAction), s)
  }

  /* ---------- message sequences ---------- */

  /** The state after handling `steps` in order, each message with the page
      as it was when the message arrived. */
  function Run(s: ContentState, steps: seq<(Message, Page)>): ContentState {
    if |steps| == 0 then s
    else
      var n := |steps| - 1;
      HandleMessage(Run(s, steps[..n]), steps[n].0, steps[n].1).1
  }

  predicate IsRead(step: (Message, Page)) { step.0.action == "readProjectCode" }

  /** A listing in which `getFileElements` found nothing. */
  predicate EmptyListing(l: Listing) {
    l.Listed? && GetFileElements(l.discovery) == []
  }

  /** A read whose file list came back empty. */
  predicate EmptyRead(step: (Message, Page)) {
    IsRead(step) && EmptyListing(step.1.files)
  }

  /** Index of the last `readProjectCode` message, if any. */
  function LastRead(steps: seq<(Message, Page)>): (k: Option<nat>)
    ensures k.None? <==> forall i :: 0 <= i < |steps| ==> !IsRead(steps[i])
    ensures k.Some? ==> k.value < |steps| && IsRead(steps[k.value])
    ensures k.Some? ==> forall j :: k.value < j < |steps| ==> !IsRead(steps[j])
  {
    if |steps| == 0 then None
    else if IsRead(steps[|steps| - 1]) then Some(|steps| - 1)
    else
      var n := |steps| - 1;
      assert forall i :: 0 <= i < n ==> steps[..n][i] == steps[i];
      LastRead(steps[..n])
  }

  /** The state after one message: a read lands on reading exactly when it
      found no files and on idle otherwise; any other message leaves the
      state as it was. */
  lemma StateAfter(s: ContentState, step: (Message, Page))
    ensures HandleMessage(s, step.0, step.1).1 ==
      if !IsRead(step) then s else if EmptyRead(step) then Reading else Idle
  {
    var r := HandleMessage(s, step.0, step.1);
    if IsRead(step) {
      assert WellFormed(r.1);
    }
  }

  /** Only `readProjectCode` moves the state, and it always lands on idle or
      reading: after any sequence of messages the state is the one the last
      read left, reading exactly when that read found no files, and
      unchanged when there was no read. */
  lemma {:induction false} RunState(s: ContentState, steps: seq<(Message, Page)>)
    ensures LastRead(steps).None? ==> Run(s, steps) == s
    ensures LastRead(steps).Some? ==>
      Run(s, steps) == (if EmptyRead(steps[LastRead(steps).value]) then Reading else Idle)
  {
    if |steps| > 0 {
      var n := |steps| - 1;
      var front := steps[..n];
      RunState(s, front);
      StateAfter(Run(s, front), steps[n]);
      assert forall i :: 0 <= i < n ==> front[i] == steps[i];
      if !IsRead(steps[n]) {
        assert LastRead(steps) == LastRead(front);
      }
    }
  }

  /** Starting idle, `getStatus` reports a read in progress exactly when the
      most recent read found an empty file list: the flag set at the start
      of that read is never cleared. */
  lemma StatusAfterRun(steps: seq<(Message, Page)>, page: Page)
    ensures var s := Run(Idle, steps);
      HandleMessage(s, Message("getStatus", ""), page).0.isReading <==>
        LastRead(steps).Some? && EmptyRead(steps[LastRead(steps).value])
  {
    RunState(Idle, steps);
  }

  /* ---------- overlapping messages ---------- */

  /* The listener does not wait for `handleMessage`, and `readProjectCode`
     gives way to other messages at each `await`: while it switches to code
     mode and waits, and while it reads each file. Two reads, or a read and
     a `getStatus`, can therefore overlap. What matters for the state is when
     each read begins and when it ends. */

  /** A moment at which a read touches the state: it begins by setting the
      flag, and it ends either on the empty-list return, which leaves the
      flag alone, or on one of the three paths that clear it. */
  datatype ReadEvent = ReadBegins | ReadEnds(emptyList: bool)

  /** How a read of `listing` ends. */
  function EndOf(listing: Listing): ReadEvent {
    ReadEnds(EmptyListing(listing))
  }

  /** The state after one event, whatever else is running. */
  function Apply(s: ContentState, e: ReadEvent): ContentState {
    match e
    case ReadBegins => Reading
    case ReadEnds(emptyList) => if emptyList then s else Idle
  }

  /** The state after `es`, in the order the events happen. */
  function Replay(s: ContentState, es: seq<ReadEvent>): ContentState {
    if |es| == 0 then s else Apply(Replay(s, es[..|es| - 1]), es[|es| - 1])
  }

  /** An event that decides the state: a read beginning, or a read ending
      on a path that clears the flag. */
  predicate Decides(e: ReadEvent) {
    e.ReadBegins? || !e.emptyList
  }

  /** Events that decide nothing leave the state as it was. */
  lemma {:induction false} ReplayQuiet(s: ContentState, es: seq<ReadEvent>)
    requires forall i :: 0 <= i < |es| ==> !Decides(es[i])
    ensures Replay(s, es) == s
  {
    if |es| > 0 {
      var n := |es| - 1;
      assert forall i :: 0 <= i < n ==> es[..n][i] == es[i];
      ReplayQuiet(s, es[..n]);
    }
  }

  /** The last deciding event fixes the state. */
  lemma {:induction false} ReplayAfter(s: ContentState, es: seq<ReadEvent>, k: nat)
    requires k < |es| && Decides(es[k])
    requires forall j :: k < j < |es| ==> !Decides(es[j])
    ensures Replay(s, es) == if es[k].ReadBegins? then Reading else Idle
  {
    var n := |es| - 1;
    if k < n {
      assert forall j :: k < j < n ==> es[..n][j] == es[j];
      ReplayAfter(s, es[..n], k);
    }
  }

  /** After any interleaving, the state is the one the last deciding event
      set: reading when a read began after the last clearing end, idle when
      a read that found files (or failed) ended last. An empty-list end after
      it changes nothing; with no deciding event the state is unchanged. */
  lemma ReplayState(s: ContentState, es: seq<ReadEvent>)
    ensures (forall i :: 0 <= i < |es| ==> !Decides(es[i])) ==> Replay(s, es) == s
    ensures forall k :: 0 <= k < |es| && Decides(es[k]) && (forall j :: k < j < |es| ==> !Decides(es[j])) ==>
      Replay(s, es) == (if es[k].ReadBegins? then Reading else Idle)
  {
    if forall i :: 0 <= i < |es| ==> !Decides(es[i]) {
      ReplayQuiet(s, es);
    }
    forall k | 0 <= k < |es| && Decides(es[k]) && (forall j :: k < j < |es| ==> !Decides(es[j]))
      ensures Replay(s, es) == (if es[k].ReadBegins? then Reading else Idle)
    {
      ReplayAfter(s, es, k);
    }
  }

  lemma {:induction false} ReplayAppend(s: ContentState, a: seq<ReadEvent>, b: seq<ReadEvent>)
    ensures Replay(s, a + b) == Replay(Replay(s, a), b)
  {
    if |b| > 0 {
      var n := |b| - 1;
      ReplayAppend(s, a, b[..n]);
      assert (a + b)[..|a| + n] == a + b[..n];
      assert (a + b)[|a| + n] == b[n];
    } else {
      assert a + b == a;
    }
  }

  /** The events of messages handled one after the other: a read begins and
      ends before the next message arrives; other messages touch nothing. */
  function Serial(steps: seq<(Message, Page)>): seq<ReadEvent> {
    if |steps| == 0 then []
    else
      var n := |steps| - 1;
      Serial(steps[..n]) + (if IsRead(steps[n]) then [ReadBegins, EndOf(steps[n].1.files)] else [])
  }

  /** The sequential model is the interleaved one with no overlap: handling
      the messages one at a time gives the state the serial events give. */
  lemma {:induction false} RunIsSerialReplay(s: ContentState, steps: seq<(Message, Page)>)
    ensures Run(s, steps) == Replay(s, Serial(steps))
  {
    if |steps| > 0 {
      var n := |steps| - 1;
      RunIsSerialReplay(s, steps[..n]);
      StateAfter(Run(s, steps[..n]), steps[n]);
      var tail := if IsRead(steps[n]) then [ReadBegins, EndOf(steps[n].1.files)] else [];
      ReplayAppend(s, Serial(steps[..n]), tail);
      if IsRead(steps[n]) {
        assert tail[..1] == [ReadBegins];
      }
    }
  }

  /** A `getStatus` answered while a read is still running, after it began
      and before anything cleared the flag, reports that read in progress,
      whether or not the read will find files. */
  lemma StatusDuringRead(s: ContentState, before: seq<ReadEvent>, during: seq<ReadEvent>, page: Page)
    requires forall i :: 0 <= i < |during| ==> !Decides(during[i])
    ensures var now := Replay(s, before + [ReadBegins] + during);
      HandleMessage(now, Message("getStatus", ""), page).0 == Status(true, Some("readProjectCode"))
  {
    var es := before + [ReadBegins] + during;
    assert es[|before|] == ReadBegins;
    assert forall j :: |before| < j < |es| ==> es[j] == during[j - |before| - 1];
    ReplayState(s, es);
  }

  /** Two overlapping reads: `a` finds files, `b` finds none and returns
      while `a` is still reading. Handled one after the other in the order
      they arrived, they would leave the flag set; interleaved, `a` ends
      last and clears it. */
  lemma OverlappingReads(pa: Page, pb: Page)
    requires !EmptyListing(pa.files) && EmptyListing(pb.files)
    ensures var read := Message("readProjectCode", "");
      Run(Idle, [(read, pa), (read, pb)]) == Reading
    ensures Replay(Idle, [ReadBegins, ReadBegins, EndOf(pb.files), EndOf(pa.files)]) == Idle
  {
    var read := Message("readProjectCode", "");
    var steps := [(read, pa), (read, pb)];
    RunState(Idle, steps);
    assert LastRead(steps) == Some(1);
    var es := [ReadBegins, ReadBegins, EndOf(pb.files), EndOf(pa.files)];
    ReplayState(Idle, es);
    assert Decides(es[3]);
  }
}

=== FILE: exclusion.dfy ===
/** The content filter `shouldExcludeContent`, which decides from a string
  alone whether a file's text is noise (a shell command, binary digits,
  repeated filler, symbols, minified text) rather than code worth keeping.
 */
module Exclusion {
  import opened Text
  import opened Patterns

  /** The exclusion rules, named after what they reject. */
  datatype Rule = TooShort | ShellCommand | BinaryData | RepetitivePattern | NonTextual | MinifiedContent

  /** The rules in the order the content script tries them. */
  const Rules: seq<Rule> := [TooShort, ShellCommand, BinaryData, RepetitivePattern, NonTextual, MinifiedContent]

  /** `new Set(t.replace(/\s/g, ''))`: the distinct non-whitespace characters. */
  function DistinctNonSpace(t: string): set<char> {
    set c | c in t && !IsSpace(c)
  }

  /** Some line of `t.split('\n')` is longer than 500 characters. */
  predicate HasVeryLongLine(t: string) {
    var lines := Split(t, '\n');
    exists i :: 0 <= i < |lines| && |lines[i]| > 500
  }

  /** More than three lines, or a brace or an angle bracket. */
  predicate HasReasonableStructure(t: string) {
    |Split(t, '\n')| > 3 || Contains(t, "{") || Contains(t, "<")
  }

  /** Letters are under a tenth of the more than 100 non-whitespace
      characters; `alpha / total < 0.1` read in integers. */
  predicate IsMostlySymbols(t: string) {
    var total := Count(t, NotSpace);
    total > 100 && Count(t, IsAlpha) * 10 < total
  }

  /** Whether `rule` fires on the trimmed text `t`. */
  predicate Fires(rule: Rule, t: string) {
    match rule
    case TooShort => |t| < 10
    case ShellCommand => IsShellCommand(t)
    case BinaryData => IsBinaryText(t) && |t| > 50
    case RepetitivePattern => |DistinctNonSpace(t)| <= 2 && |t| > 100
    case NonTextual => IsMostlySymbols(t)
    case MinifiedContent => HasVeryLongLine(t) && !HasReasonableStructure(t)
  }

  /** `shouldExcludeContent`: the rules tried in turn on the trimmed text,
      the first that fires deciding. */
  function ShouldExcludeContent(text: string): bool {
    ExcludeTrimmedText(Trim(text))
  }

  /** What passing the filter guarantees about the trimmed text: at least 10
      characters, at least three distinct visible characters when longer
      than 100, no shell command, no binary dump, no symbol soup, and a very
      long line only in text with some structure. */
  lemma AcceptedText(text: string)
    requires !ShouldExcludeContent(text)
    ensures var t := Trim(text);
      && |t| >= 10
      && !IsShellCommand(t)
      && !(IsBinaryText(t) && |t| > 50)
      && (|t| > 100 ==> |DistinctNonSpace(t)| >= 3)
      && !IsMostlySymbols(t)
      && (HasVeryLongLine(t) ==> HasReasonableStructure(t))
  {
  }

  /** The chain of tests of `shouldExcludeContent` on already trimmed text. */
  function ExcludeTrimmedText(t: string): bool {
    if |t| < 10 then true
    else if IsShellCommand(t) then true
    else if IsBinaryText(t) && |t| > 50 then true
    else if |DistinctNonSpace(t)| <= 2 && |t| > 100 then true
    else if IsMostlySymbols(t) then true
    else if HasVeryLongLine(t) && !HasReasonableStructure(t) then true
    else false
  }

  /** The first rule of `rules` that fires on `t`, if any. */
  function FirstFiring(rules: seq<Rule>, t: string): (r: Option<Rule>)
    ensures r.None? <==> forall j :: 0 <= j < |rules| ==> !Fires(rules[j], t)
    ensures r.Some? ==> r.value in rules && Fires(r.value, t)
    ensures r.Some? ==> exists i :: 0 <= i < |rules| && rules[i] == r.value && forall j :: 0 <= j < i ==> !Fires(rules[j], t)
  {
    if |rules| == 0 then None
    else if Fires(rules[0], t) then
      Some(rules[0])
    else
      var r := FirstFiring(rules[1..], t);
      if r.Some? then
        var i :| 0 <= i < |rules[1..]| && rules[1..][i] == r.value && forall j :: 0 <= j < i ==> !Fires(rules[1..][j], t);
        assert rules[i + 1] == r.value;
        assert forall j :: 0 <= j < i + 1 ==> !Fires(rules[j], t) by {
          forall j | 0 <= j < i + 1 ensures !Fires(rules[j], t) {
            if j > 0 { assert rules[j] == rules[1..][j - 1]; }
          }
        }
        r
      else r
  }

  /** Why a text is excluded: the first rule of the table that fires. */
  function ExclusionReason(text: string): Option<Rule> {
    FirstFiring(Rules, Trim(text))
  }

  /** The chain of tests in the content script and the rule table agree: a text is
      excluded exactly when some rule of the table fires on it, so the order
      of the tests decides only which reason is reported. */
  lemma ExclusionByTable(text: string)
    ensures ShouldExcludeContent(text) <==> ExclusionReason(text).Some?
    ensures ShouldExcludeContent(text) <==> exists rule :: rule in Rules && Fires(rule, Trim(text))
  {
    var t := Trim(text);
    if ShouldExcludeContent(text) {
      var rule :| rule in Rules && Fires(rule, t) by {
        if |t| < 10 { assert Fires(Rules[0], t); }
        else if IsShellCommand(t) { assert Fires(Rules[1], t); }
        else if IsBinaryText(t) && |t| > 50 { assert Fires(Rules[2], t); }
        else if |DistinctNonSpace(t)| <= 2 && |t| > 100 { assert Fires(Rules[3], t); }
        else if IsMostlySymbols(t) { assert Fires(Rules[4], t); }
        else { assert Fires(Rules[5], t); }
      }
      assert !(forall j :: 0 <= j < |Rules| ==> !Fires(Rules[j], t));
    } else {
      forall j | 0 <= j < |Rules| ensures !Fires(Rules[j], t) {
      }
    }
  }

  /** The filter trims first, so trimming before calling it changes nothing;
      the file reader hands it text that is already trimmed. */
  lemma ExcludeTrimmed(text: string)
    ensures ShouldExcludeContent(Trim(text)) == ShouldExcludeContent(text)
  {
    TrimIdempotent(text);
    assert Trim(Trim(text)) == Trim(text);
  }

  /** Text made only of binary digits and whitespace, longer than 50
      characters once trimmed, is excluded. */
  lemma BinaryExcluded(text: string)
    requires |Trim(text)| > 50
    requires forall i :: 0 <= i < |text| ==> IsBinaryChar(text[i])
    ensures ShouldExcludeContent(text)
  {
    var t := Trim(text);
    var i: nat :| StrippedAt(text, t, i);
    forall k | 0 <= k < |t| ensures IsBinaryChar(t[k]) {
      assert t[k] == text[i + k];
    }
  }
}

=== FILE: filetree.dfy ===
/** The file list of the project reader (`getFileElements` and
  `isValidFileName`).

  The DOM queries are replaced by their results: each of the three selector
  strategies yields, in document order, the buttons that passed its own icon
  tests, each with the text of its name element. A button is represented by
  what clicking it and reading the editor yields (`FileProbe`), since that is
  all the reader later does with it.
 */
module FileTree {
  import opened Text
  import opened Patterns

  /** Outcome of clicking a file button and reading the code editor. */
  datatype FileProbe =
    | Unclickable                                 // no element, or it has no `click` function
    | Opened(editorTexts: seq<Option<string>>)    // text each editor strategy finds, in order
    | Threw(message: string)                      // an exception while opening or reading

  /** A candidate button: the raw text of its `[translate="no"]` name element and
      what clicking it yields. */
  datatype FileButton = FileButton(nameText: string, probe: FileProbe)

  /** An accepted file: its trimmed name and its button's behaviour. */
  datatype FileEntry = FileEntry(name: string, probe: FileProbe)

  /** The candidates of the three selector strategies, in document order. */
  datatype Discovery = Discovery(fileButtons: seq<FileButton>, paddedButtons: seq<FileButton>, closedButtons: seq<FileButton>)

  /* ---------- isValidFileName ---------- */

  const InvalidNameParts: seq<string> := ["Files", "Search", "caret", "icon", ".bolt", "node_modules"]

  /** `isValidFileName`. */
  predicate IsValidFileName(name: string) {
    if |name| == 0 || |name| > 100 then false
    else if ContainsAnyOf(name, InvalidNameParts) then false
    else IsFileNameText(name)
  }

  /** A name is valid exactly when it has 1 to 100 characters, contains none
      of the navigation labels and uses only characters of
      `[a-zA-Z0-9._\-\/\\]`. */
  lemma ValidFileNameIff(name: string)
    ensures IsValidFileName(name) <==>
      && 1 <= |name| <= 100
      && (forall n :: 0 <= n < |InvalidNameParts| ==> !Contains(name, InvalidNameParts[n]))
      && (forall i :: 0 <= i < |name| ==> IsFileNameChar(name[i]))
  {
  }

  /** A valid name has no whitespace, so trimming leaves it as it is: the
      name the reader shows is the text of the button. */
  lemma ValidNameIsTrimmed(name: string)
    requires IsValidFileName(name)
    ensures Trim(name) == name
    ensures forall i :: 0 <= i < |name| ==> !IsSpace(name[i])
  {
    assert forall i :: 0 <= i < |name| ==> IsFileNameChar(name[i]);
    assert Span(name, IsSpace) == 0;
    assert name[0..] == name;
    assert SpanBack(name, IsSpace) == 0;
    assert name[..|name|] == name;
  }

  /* ---------- the de-duplicating pass ---------- */

  function Names(es: seq<FileEntry>): set<string> {
    set i | 0 <= i < |es| :: es[i].name
  }

  predicate DistinctNames(es: seq<FileEntry>) {
    forall i, j :: 0 <= i < j < |es| ==> es[i].name != es[j].name
  }

  /** A candidate with its name trimmed, as `textContent.trim()` gives it. */
  function EntryOf(b: FileButton): FileEntry { FileEntry(Trim(b.nameText), b.probe) }

  /** The candidates of all three strategies, in the order they are visited. */
  function Candidates(d: Discovery): (es: seq<FileEntry>)
    ensures var bs := d.fileButtons + d.paddedButtons + d.closedButtons;
      |es| == |bs| && forall i :: 0 <= i < |bs| ==> es[i] == EntryOf(bs[i])
  {
    var bs := d.fileButtons + d.paddedButtons + d.closedButtons;
    seq(|bs|, i requires 0 <= i < |bs| => EntryOf(bs[i]))
  }

  /** The state the three `forEach` loops share: `seenNames` and `fileElements`. */
  datatype Collected = Collected(seen: set<string>, entries: seq<FileEntry>)

  /** One step of a loop: keep the candidate when its name is non-empty, not
      yet seen and valid. */
  function Accept(c: Collected, e: FileEntry): Collected {
    if |e.name| > 0 && e.name !in c.seen && IsValidFileName(e.name)
    then Collected(c.seen + {e.name}, c.entries + [e])
    else c
  }

  /** `es[i]` is the first candidate carrying its name. */
  ghost predicate IsFirstOfName(es: seq<FileEntry>, i: int) {
    0 <= i < |es| && forall j :: 0 <= j < i ==> es[j].name != es[i].name
  }

  /** The invariant of the loops after visiting `es`. */
  ghost predicate CollectedFrom(es: seq<FileEntry>, c: Collected) {
    && c.seen == Names(c.entries)
    && DistinctNames(c.entries)
    && (forall i :: 0 <= i < |c.entries| ==> IsValidFileName(c.entries[i].name))
    && (forall i :: 0 <= i < |c.entries| ==> exists k :: IsFirstOfName(es, k) && c.entries[i] == es[k])
    && (forall k :: IsFirstOfName(es, k) && IsValidFileName(es[k].name) ==> es[k] in c.entries)
    && (forall k :: 0 <= k < |es| && IsValidFileName(es[k].name) ==> es[k].name in c.seen)
  }

  /** The loops run over `es` in order, starting from nothing seen. The
      result keeps, for every valid name, the first candidate carrying it,
      and nothing else; no name appears twice. */
  function Collect(es: seq<FileEntry>): (c: Collected)
    ensures CollectedFrom(es, c)
  {
    if |es| == 0 then Collected({}, [])
    else
      var prev := Collect(es[..|es| - 1]);
      CollectStep(es, prev);
      Accept(prev, es[|es| - 1])
  }

  /** Visiting one more candidate keeps the invariant. */
  lemma CollectStep(es: seq<FileEntry>, prev: Collected)
    requires |es| > 0
    requires CollectedFrom(es[..|es| - 1], prev)
    ensures CollectedFrom(es, Accept(prev, es[|es| - 1]))
  {
    var e := es[|es| - 1];
    FrontFirsts(es);
    if |e.name| > 0 && e.name !in prev.seen && IsValidFileName(e.name) {
      AcceptedStep(es, prev);
    } else {
      RejectedStep(es, prev);
    }
  }

  /** Before the last candidate, being first of its name does not depend on
      the last candidate. */
  lemma FrontFirsts(es: seq<FileEntry>)
    requires |es| > 0
    ensures forall k :: 0 <= k < |es| - 1 ==> (IsFirstOfName(es[..|es| - 1], k) <==> IsFirstOfName(es, k))
  {
    var front := es[..|es| - 1];
    assert forall k :: 0 <= k < |front| ==> front[k] == es[k];
  }

  /** The step that keeps a candidate. */
  lemma AcceptedStep(es: seq<FileEntry>, prev: Collected)
    requires |es| > 0
    requires CollectedFrom(es[..|es| - 1], prev)
    requires forall k :: 0 <= k < |es| - 1 ==> (IsFirstOfName(es[..|es| - 1], k) <==> IsFirstOfName(es, k))
    requires var e := es[|es| - 1]; |e.name| > 0 && e.name !in prev.seen && IsValidFileName(e.name)
    ensures CollectedFrom(es, Accept(prev, es[|es| - 1]))
  {
    var front := es[..|es| - 1];
    var n := |es| - 1;
    var e := es[n];
    var c := Accept(prev, e);
    assert forall k :: 0 <= k < n ==> front[k] == es[k];
    assert c.entries == prev.entries + [e];
    assert IsFirstOfName(es, n) by {
      forall j | 0 <= j < n ensures es[j].name != e.name {
        assert front[j] == es[j];
      }
    }
    AppendNames(prev.entries, e);
    forall i | 0 <= i < |c.entries|
      ensures exists k :: IsFirstOfName(es, k) && c.entries[i] == es[k]
    {
      if i < |prev.entries| {
        assert c.entries[i] == prev.entries[i];
        var k :| IsFirstOfName(front, k) && prev.entries[i] == front[k];
        assert IsFirstOfName(es, k);
      } else {
        assert c.entries[i] == es[n];
      }
    }
    forall k | IsFirstOfName(es, k) && IsValidFileName(es[k].name) ensures es[k] in c.entries {
      if k < n {
        assert IsFirstOfName(front, k);
      }
    }
    forall k | 0 <= k < |es| && IsValidFileName(es[k].name) ensures es[k].name in c.seen {
      if k < n {
        assert front[k] == es[k];
      }
    }
  }

  /** The step that skips a candidate. */
  lemma RejectedStep(es: seq<FileEntry>, prev: Collected)
    requires |es| > 0
    requires CollectedFrom(es[..|es| - 1], prev)
    requires forall k :: 0 <= k < |es| - 1 ==> (IsFirstOfName(es[..|es| - 1], k) <==> IsFirstOfName(es, k))
    requires var e := es[|es| - 1]; !(|e.name| > 0 && e.name !in prev.seen && IsValidFileName(e.name))
    ensures CollectedFrom(es, Accept(prev, es[|es| - 1]))
  {
    var front := es[..|es| - 1];
    var n := |es| - 1;
    var e := es[n];
    assert Accept(prev, e) == prev;
    assert forall k :: 0 <= k < n ==> front[k] == es[k];
    forall i | 0 <= i < |prev.entries|
      ensures exists k :: IsFirstOfName(es, k) && prev.entries[i] == es[k]
    {
      var k :| IsFirstOfName(front, k) && prev.entries[i] == front[k];
      assert IsFirstOfName(es, k);
    }
    forall k | IsFirstOfName(es, k) && IsValidFileName(es[k].name) ensures es[k] in prev.entries {
      if k < n {
        assert IsFirstOfName(front, k);
      }
    }
    forall k | 0 <= k < |es| && IsValidFileName(es[k].name) ensures es[k].name in prev.seen {
      if k < n {
        assert front[k] == es[k];
      }
    }
  }

  /** Appending an entry with a new name keeps the names distinct. */
  lemma AppendNames(es: seq<FileEntry>, e: FileEntry)
    requires DistinctNames(es) && e.name !in Names(es)
    ensures Names(es + [e]) == Names(es) + {e.name}
    ensures DistinctNames(es + [e])
  {
    var r := es + [e];
    forall y | y in Names(r) ensures y in Names(es) + {e.name} {
      var i :| 0 <= i < |r| && r[i].name == y;
      if i < |es| { assert r[i] == es[i]; }
    }
    forall y | y in Names(es) ensures y in Names(r) {
      var i :| 0 <= i < |es| && es[i].name == y;
      assert r[i] == es[i];
    }
    assert r[|es|] == e;
    forall i, j | 0 <= i < j < |r| ensures r[i].name != r[j].name {
      assert r[i] == es[i];
      if j < |es| { assert r[j] == es[j]; }
      else { assert es[i].name in Names(es); }
    }
  }

  /* ---------- sorting by name ---------- */

  /** Lexicographic order on character codes; it stands for `localeCompare`. */
  predicate LexLe(a: string, b: string)
    decreases |a|
  {
    |a| == 0 || (|b| > 0 && (a[0] < b[0] || (a[0] == b[0] && LexLe(a[1..], b[1..]))))
  }

  lemma {:induction false} LexLeTotal(a: string, b: string)
    ensures LexLe(a, b) || LexLe(b, a)
    decreases |a|
  {
    if |a| > 0 && |b| > 0 && a[0] == b[0] {
      LexLeTotal(a[1..], b[1..]);
    }
  }

  lemma {:induction false} LexLeTrans(a: string, b: string, c: string)
    requires LexLe(a, b) && LexLe(b, c)
    ensures LexLe(a, c)
    decreases |a|
  {
    if |a| > 0 && a[0] == b[0] && b[0] == c[0] {
      LexLeTrans(a[1..], b[1..], c[1..]);
    }
  }

  lemma {:induction false} LexLeAntisymmetric(a: string, b: string)
    requires LexLe(a, b) && LexLe(b, a)
    ensures a == b
    decreases |a|
  {
    if |a| > 0 {
      LexLeAntisymmetric(a[1..], b[1..]);
      assert a == [a[0]] + a[1..] && b == [b[0]] + b[1..];
    }
  }

  predicate SortedByName(es: seq<FileEntry>) {
    forall i, j :: 0 <= i < j < |es| ==> LexLe(es[i].name, es[j].name)
  }

  /** Names of a list with one entry in front; a list with distinct names
      keeps them distinct without its head. */
  lemma ConsNames(e: FileEntry, s: seq<FileEntry>)
    ensures Names([e] + s) == Names(s) + {e.name}
    ensures DistinctNames([e] + s) ==> DistinctNames(s) && e.name !in Names(s)
  {
    var r := [e] + s;
    assert forall i :: 0 <= i < |s| ==> r[i + 1] == s[i];
    assert r[0] == e && e.name in Names(r);
    forall y | y in Names(r) ensures y in Names(s) + {e.name} {
      var i :| 0 <= i < |r| && r[i].name == y;
      if i > 0 { assert r[i] == s[i - 1]; }
    }
    forall y | y in Names(s) ensures y in Names(r) {
      var i :| 0 <= i < |s| && s[i].name == y;
      assert r[i + 1] == s[i];
    }
    if DistinctNames(r) {
      forall i, j | 0 <= i < j < |s| ensures s[i].name != s[j].name {
        assert r[i + 1] == s[i] && r[j + 1] == s[j];
      }
    }
  }

  /** Where `x` goes in a list sorted by name: before the first entry whose
      name is not smaller, or at the end. */
  function InsertPosition(x: FileEntry, s: seq<FileEntry>): (k: nat)
    ensures k <= |s|
    ensures forall j :: 0 <= j < k ==> !LexLe(x.name, s[j].name)
    ensures k < |s| ==> LexLe(x.name, s[k].name)
  {
    if |s| == 0 || LexLe(x.name, s[0].name) then 0 else 1 + InsertPosition(x, s[1..])
  }

  /** Insert `x` into a list sorted by name. */
  function Insert(x: FileEntry, s: seq<FileEntry>): (r: seq<FileEntry>)
    requires SortedByName(s)
    ensures SortedByName(r)
    ensures multiset(r) == multiset(s) + multiset{x}
    ensures Names(r) == Names(s) + {x.name}
    ensures DistinctNames(s) && x.name !in Names(s) ==> DistinctNames(r)
  {
    var k := InsertPosition(x, s);
    var r := s[..k] + [x] + s[k..];
    assert s == s[..k] + s[k..];
    InsertSorted(x, s, k);
    InsertNames(x, s, k);
    r
  }

  /** Putting `x` at its insertion position keeps a list sorted. */
  lemma InsertSorted(x: FileEntry, s: seq<FileEntry>, k: nat)
    requires SortedByName(s) && k == InsertPosition(x, s)
    ensures SortedByName(s[..k] + [x] + s[k..])
  {
    var r := s[..k] + [x] + s[k..];
    assert forall j :: 0 <= j < k ==> r[j] == s[j];
    assert forall j :: k < j < |r| ==> r[j] == s[j - 1];
    forall i, j | 0 <= i < j < |r| ensures LexLe(r[i].name, r[j].name) {
      if j == k {
        LexLeTotal(x.name, s[i].name);
      } else if i == k {
        if j > k + 1 { LexLeTrans(x.name, s[k].name, s[j - 1].name); }
      } else if i < k && k < j {
        LexLeTotal(x.name, s[i].name);
        if j > k + 1 { LexLeTrans(x.name, s[k].name, s[j - 1].name); }
        LexLeTrans(s[i].name, x.name, s[j - 1].name);
      }
    }
  }

  /** Names and distinctness of a list with an entry put at index `k`. */
  lemma InsertNames(x: FileEntry, s: seq<FileEntry>, k: nat)
    requires k <= |s|
    ensures Names(s[..k] + [x] + s[k..]) == Names(s) + {x.name}
    ensures DistinctNames(s) && x.name !in Names(s) ==> DistinctNames(s[..k] + [x] + s[k..])
  {
    var r := s[..k] + [x] + s[k..];
    assert forall j :: 0 <= j < k ==> r[j] == s[j];
    assert forall j :: k < j < |r| ==> r[j] == s[j - 1];
    assert r[k] == x && x.name in Names(r);
    forall y | y in Names(r) ensures y in Names(s) + {x.name} {
      var i :| 0 <= i < |r| && r[i].name == y;
      if i < k { assert r[i] == s[i]; }
      else if i > k { assert r[i] == s[i - 1]; }
    }
    forall y | y in Names(s) ensures y in Names(r) {
      var i :| 0 <= i < |s| && s[i].name == y;
      if i < k { assert r[i] == s[i]; } else { assert r[i + 1] == s[i]; }
    }
    if DistinctNames(s) && x.name !in Names(s) {
      forall i, j | 0 <= i < j < |r| ensures r[i].name != r[j].name {
        if i == k { assert r[j] == s[j - 1]; assert s[j - 1].name in Names(s); }
        else if j == k { assert r[i] == s[i]; assert s[i].name in Names(s); }
        else if j < k { assert r[i] == s[i] && r[j] == s[j]; }
        else if i < k { assert r[i] == s[i] && r[j] == s[j - 1]; }
        else { assert r[i] == s[i - 1] && r[j] == s[j - 1]; }
      }
    }
  }

  /** Insertion sort by name. */
  function SortByName(es: seq<FileEntry>): (r: seq<FileEntry>)
    ensures SortedByName(r)
    ensures multiset(r) == multiset(es)
    ensures Names(r) == Names(es)
    ensures DistinctNames(es) ==> DistinctNames(r)
  {
    if |es| == 0 then []
    else
      assert es == [es[0]] + es[1..];
      ConsNames(es[0], es[1..]);
      Insert(es[0], SortByName(es[1..]))
  }

  /* ---------- getFileElements ---------- */

  /** `files` is what the reader should list for the candidates `es`: each
      valid name once, with the first candidate that carried it, sorted by
      name, and nothing else. */
  ghost predicate IsFileList(es: seq<FileEntry>, files: seq<FileEntry>) {
    && DistinctNames(files)
    && SortedByName(files)
    && (forall i :: 0 <= i < |files| ==> IsValidFileName(files[i].name))
    && (forall i :: 0 <= i < |files| ==> exists k :: IsFirstOfName(es, k) && files[i] == es[k])
    && (forall k :: IsFirstOfName(es, k) && IsValidFileName(es[k].name) ==> es[k] in files)
  }

  /** `getFileElements`: the three strategies' candidates in turn through one
      seen-name set, then sorted by name. */
  function GetFileElements(d: Discovery): (files: seq<FileEntry>)
    ensures IsFileList(Candidates(d), files)
  {
    var es := Candidates(d);
    var c := Collect(es);
    var files := SortByName(c.entries);
    SortedIsFileList(es, c, files);
    files
  }

  /** Sorting the collected entries keeps the invariant of the loops. */
  lemma SortedIsFileList(es: seq<FileEntry>, c: Collected, files: seq<FileEntry>)
    requires CollectedFrom(es, c)
    requires SortedByName(files) && multiset(files) == multiset(c.entries)
    requires Names(files) == Names(c.entries)
    requires DistinctNames(files)
    ensures IsFileList(es, files)
  {
    forall i | 0 <= i < |files| ensures IsValidFileName(files[i].name) {
      assert files[i] in multiset(c.entries);
    }
    forall i | 0 <= i < |files| ensures exists k :: IsFirstOfName(es, k) && files[i] == es[k] {
      assert files[i] in multiset(c.entries);
      var m :| 0 <= m < |c.entries| && c.entries[m] == files[i];
      var k :| IsFirstOfName(es, k) && c.entries[m] == es[k];
      assert IsFirstOfName(es, k) && files[i] == es[k];
    }
    forall k | IsFirstOfName(es, k) && IsValidFileName(es[k].name) ensures es[k] in files {
      assert es[k] in multiset(files);
    }
  }

  /** When two candidates carry the same valid name, the list holds that name
      once, with the behaviour of the first candidate that carried it. */
  lemma DuplicateKeepsFirst(es: seq<FileEntry>, files: seq<FileEntry>, i: nat, j: nat)
    requires IsFileList(es, files)
    requires i < j < |es| && es[i].name == es[j].name && IsValidFileName(es[i].name)
    ensures exists m :: 0 <= m < |files| && files[m].name == es[i].name
    ensures forall m :: 0 <= m < |files| && files[m].name == es[i].name ==>
      files[m] == es[FirstIndexOfName(es, es[i].name)]
  {
    var name := es[i].name;
    var f := FirstIndexOfName(es, name);
    assert IsFirstOfName(es, f);
    assert es[f] in files;
    forall m | 0 <= m < |files| && files[m].name == name ensures files[m] == es[f] {
      var k :| IsFirstOfName(es, k) && files[m] == es[k];
      if f < k { assert es[f].name == es[k].name; }
    }
  }

  /** Index of the first candidate named `name`. */
  function FirstIndexOfName(es: seq<FileEntry>, name: string): (k: nat)
    requires exists i :: 0 <= i < |es| && es[i].name == name
    ensures k < |es| && es[k].name == name
    ensures forall j :: 0 <= j < k ==> es[j].name != name
  {
    if es[0].name == name then 0
    else
      assert exists i :: 0 <= i < |es[1..]| && es[1..][i].name == name by {
        var i :| 0 <= i < |es| && es[i].name == name;
        assert es[1..][i - 1] == es[i];
      }
      1 + FirstIndexOfName(es[1..], name)
  }
}

=== FILE: latestplan.dfy ===
/** `readLatestPlan` and `cleanMessageText`: finding the most recent answer of
  the assistant in the chat section and preparing it for display.

  The chat section is replaced by what the reader's queries return: the
  `div[data-message-id]` elements in document order, and every `div` in
  document order for the fallback, each reduced to the facts the reader
  inspects (`MessageDiv`).
 */
module LatestPlan {
  import opened Text
  import opened Patterns

  /** What the reader sees of one `div`: whether it has the `self-end` class,
      whether it holds a user bubble (`.bg-bolt-elements-messages-background.self-end`),
      the text of its first `h3`, and the text of its first markdown block. */
  datatype MessageDiv = MessageDiv(
    selfEnd: bool,
    hasUserBubble: bool,
    header: Option<string>,
    markdown: Option<string>)

  /** The chat section as the reader finds it. */
  datatype ChatPage =
    | NoChatSection
    | ChatSection(messages: seq<MessageDiv>, divs: seq<MessageDiv>)
    | ChatFault(message: string)        // an exception raised while reading the page

  /** What `readLatestPlan` sends back. */
  datatype PlanResult = PlanFound(plan: string) | PlanError(error: string)

  const ChatSectionMissing: string :=
    "Chat section not found. Make sure you're on a bolt.new conversation page."
  const NoAIMessages: string :=
    "No AI messages found in the conversation. Make sure Bolt has responded to your query."

  /** Display limit and the marker appended to a longer plan. */
  const PlanLimit: nat := 3000
  const PlanTruncationSuffix: string := "...\n\n(truncated for display)"

  /** A candidate of the primary method: its trimmed text and its index among
      the messages. */
  datatype Candidate = Candidate(text: string, domPosition: nat)

  /* ---------- primary method ---------- */

  predicate HasBoltHeader(m: MessageDiv) {
    m.header.Some? && Trim(m.header.value) == "Bolt"
  }

  /** The text the primary method takes from a message: none for a user
      message, for one without the Bolt header or markdown, or when the
      trimmed markdown has 50 characters or fewer. */
  function PrimaryText(m: MessageDiv): Option<string> {
    if m.selfEnd || m.hasUserBubble then None
    else if HasBoltHeader(m) && m.markdown.Some? then
      var text := Trim(m.markdown.value);
      if |text| > 0 && |text| > 50 then Some(text) else None
    else None
  }

  /** A message qualifies exactly when it is not a user message, has the
      Bolt header and markdown, and its trimmed markdown is longer than 50
      characters; the text kept is that trimmed markdown. */
  lemma PrimaryTextIff(m: MessageDiv)
    ensures PrimaryText(m).Some? <==>
      !m.selfEnd && !m.hasUserBubble && HasBoltHeader(m) && m.markdown.Some? && |Trim(m.markdown.value)| > 50
    ensures PrimaryText(m).Some? ==> PrimaryText(m).value == Trim(m.markdown.value)
  {
  }

  /** The `aiMessages` array: one candidate per qualifying message, in
      document order. */
  function PrimaryCandidates(msgs: seq<MessageDiv>): (cs: seq<Candidate>)
    ensures forall j :: 0 <= j < |cs| ==> cs[j].domPosition < |msgs|
    ensures forall j :: 0 <= j < |cs| ==> PrimaryText(msgs[cs[j].domPosition]) == Some(cs[j].text)
    ensures forall i, j :: 0 <= i < j < |cs| ==> cs[i].domPosition < cs[j].domPosition
    ensures forall p :: 0 <= p < |msgs| && PrimaryText(msgs[p]).Some? ==>
      exists j :: 0 <= j < |cs| && cs[j].domPosition == p
  {
    CandidatesBy(msgs, PrimaryText, |msgs|)
  }

  /** The messages among the first `n` that `take` keeps, with their
      positions, in document order. */
  function CandidatesBy(msgs: seq<MessageDiv>, take: MessageDiv -> Option<string>, n: nat): (cs: seq<Candidate>)
    requires n <= |msgs|
    ensures forall j :: 0 <= j < |cs| ==> cs[j].domPosition < n
    ensures forall j :: 0 <= j < |cs| ==> take(msgs[cs[j].domPosition]) == Some(cs[j].text)
    ensures forall i, j :: 0 <= i < j < |cs| ==> cs[i].domPosition < cs[j].domPosition
    ensures forall p :: 0 <= p < n && take(msgs[p]).Some? ==>
      exists j :: 0 <= j < |cs| && cs[j].domPosition == p
  {
    if n == 0 then []
    else
      var front := CandidatesBy(msgs, take, n - 1);
      var m := take(msgs[n - 1]);
      if m.None? then front
      else
        var cs := front + [Candidate(m.value, n - 1)];
        assert forall j :: 0 <= j < |front| ==> cs[j] == front[j];
        assert cs[|front|].domPosition == n - 1;
        cs
  }

  /** The first element after sorting by `domPosition` descending: the
      candidate with the highest position, the earliest one among equals,
      as a stable sort leaves them. */
  function Latest(cs: seq<Candidate>): (c: Candidate)
    requires |cs| > 0
    ensures forall j :: 0 <= j < |cs| ==> cs[j].domPosition <= c.domPosition
    ensures c in cs
  {
    cs[LatestIndex(cs, |cs|)]
  }

  /** Index of the first candidate with the highest position among the first
      `n`. */
  function LatestIndex(cs: seq<Candidate>, n: nat): (k: nat)
    requires 0 < n <= |cs|
    ensures k < n
    ensures forall j :: 0 <= j < n ==> cs[j].domPosition <= cs[k].domPosition
    ensures forall j :: 0 <= j < k ==> cs[j].domPosition < cs[k].domPosition
  {
    if n == 1 then 0
    else
      var k := LatestIndex(cs, n - 1);
      if cs[n - 1].domPosition > cs[k].domPosition then n - 1 else k
  }

  /** With positions increasing, the latest candidate is the last one. */
  lemma LatestOfIncreasing(cs: seq<Candidate>)
    requires |cs| > 0
    requires forall i, j :: 0 <= i < j < |cs| ==> cs[i].domPosition < cs[j].domPosition
    ensures Latest(cs) == cs[|cs| - 1]
  {
    var k := LatestIndex(cs, |cs|);
    assert cs[|cs| - 1].domPosition <= cs[k].domPosition;
  }

  /* ---------- fallback method ---------- */

  /** A `div` the fallback accepts: a Bolt header, no `self-end` class, and a
      markdown block. */
  predicate IsBoltDiv(m: MessageDiv) {
    HasBoltHeader(m) && !m.selfEnd && m.markdown.Some?
  }

  /** Index of the last accepted `div`, if any. */
  function LastBoltDiv(divs: seq<MessageDiv>): (k: Option<nat>)
    ensures k.None? <==> forall i :: 0 <= i < |divs| ==> !IsBoltDiv(divs[i])
    ensures k.Some? ==> k.value < |divs| && IsBoltDiv(divs[k.value])
    ensures k.Some? ==> forall j :: k.value < j < |divs| ==> !IsBoltDiv(divs[j])
  {
    LastWhere(divs, IsBoltDiv, |divs|)
  }

  /** Index of the last of the first `n` `div`s that `accept` holds for. */
  function LastWhere(divs: seq<MessageDiv>, accept: MessageDiv -> bool, n: nat): (k: Option<nat>)
    requires n <= |divs|
    ensures k.None? <==> forall i :: 0 <= i < n ==> !accept(divs[i])
    ensures k.Some? ==> k.value < n && accept(divs[k.value])
    ensures k.Some? ==> forall j :: k.value < j < n ==> !accept(divs[j])
  {
    if n == 0 then None
    else if accept(divs[n - 1]) then Some(n - 1)
    else LastWhere(divs, accept, n - 1)
  }

  /** The trimmed markdown of the last accepted `div`, if any; the fallback
      has no length limit. */
  function FallbackText(divs: seq<MessageDiv>): Option<string> {
    match LastBoltDiv(divs)
    case None => None
    case Some(k) => Some(Trim(divs[k].markdown.value))
  }

  /* ---------- cleanMessageText ---------- */

  /** Whitespace is single spaces, never two in a row. */
  predicate IsCollapsed(s: string) {
    && (forall i :: 0 <= i < |s| && IsSpace(s[i]) ==> s[i] == ' ')
    && (forall i :: 0 <= i < |s| - 1 ==> !(IsSpace(s[i]) && IsSpace(s[i + 1])))
  }

  lemma CollapsedSlice(s: string, i: nat, j: nat)
    requires IsCollapsed(s) && i <= j <= |s|
    ensures IsCollapsed(s[i..j])
  {
    var t := s[i..j];
    assert forall k :: 0 <= k < |t| ==> t[k] == s[i + k];
  }

  /** `cleanMessageText`: whitespace runs to one space, then the two prefix
      patterns removed, then trimmed. */
  function CleanMessageText(t: string): string {
    var c := CollapseSpaces(t);
    var a := c[LabelPrefixLength(c)..];
    Trim(a[NamePrefixLength(a)..])
  }

  /** The cleaned text has no whitespace at either end, only single spaces
      inside, and what it keeps of the text is a tail of it: the clean-up
      never adds or reorders a visible character. */
  lemma CleanMessageTextShape(t: string)
    ensures var r := CleanMessageText(t);
      && (r == [] || (!IsSpace(r[0]) && !IsSpace(r[|r| - 1])))
      && IsCollapsed(r)
      && IsSuffix(Keep(r, NotSpace), Keep(t, NotSpace))
  {
    CleanCollapsed(t);
    CleanKeepsTail(t);
  }

  lemma CleanCollapsed(t: string)
    ensures IsCollapsed(CleanMessageText(t))
  {
    var c := CollapseSpaces(t);
    assert IsCollapsed(c);
    var p := LabelPrefixLength(c);
    CutsCollapsed(c, p, NamePrefixLength(c[p..]));
  }

  /** Cutting two prefixes off a collapsed text and trimming it keeps it
      collapsed. */
  lemma CutsCollapsed(c: string, p: nat, q: nat)
    requires IsCollapsed(c) && p <= |c| && q <= |c| - p
    ensures IsCollapsed(Trim(c[p..][q..]))
  {
    var a := c[p..];
    CollapsedSlice(c, p, |c|);
    CollapsedSlice(a, q, |a|);
    TrimCollapsed(a[q..]);
  }

  lemma CleanKeepsTail(t: string)
    ensures IsSuffix(Keep(CleanMessageText(t), NotSpace), Keep(t, NotSpace))
  {
    var c := CollapseSpaces(t);
    var a := c[LabelPrefixLength(c)..];
    CleanKeeps(t, c, a, a[NamePrefixLength(a)..]);
  }

  lemma TrimCollapsed(b: string)
    requires IsCollapsed(b)
    ensures IsCollapsed(Trim(b))
  {
    var r := Trim(b);
    var i: nat :| StrippedAt(b, r, i);
    CollapsedSlice(b, i, i + |r|);
  }

  lemma CleanKeeps(t: string, c: string, a: string, b: string)
    requires Keep(c, NotSpace) == Keep(t, NotSpace)
    requires a == c[LabelPrefixLength(c)..]
    requires b == a[NamePrefixLength(a)..]
    ensures IsSuffix(Keep(Trim(b), NotSpace), Keep(t, NotSpace))
  {
    KeepDrop(c, LabelPrefixLength(c));
    KeepDrop(a, NamePrefixLength(a));
    KeepTrim(b);
    SuffixTrans(Keep(b, NotSpace), Keep(a, NotSpace), Keep(c, NotSpace));
  }

  lemma SuffixTrans(x: string, y: string, z: string)
    requires IsSuffix(x, y) && IsSuffix(y, z)
    ensures IsSuffix(x, z)
  {
    assert z[|z| - |x|..] == z[|z| - |y|..][|y| - |x|..];
  }

  /* ---------- readLatestPlan ---------- */

  /** The text the reader settles on: the latest primary candidate, otherwise
      the fallback's text, otherwise the empty string. */
  function LatestMessageText(msgs: seq<MessageDiv>, divs: seq<MessageDiv>): string {
    var cs := PrimaryCandidates(msgs);
    if |cs| > 0 then Latest(cs).text
    else match FallbackText(divs)
      case Some(t) => t
      case None => ""
  }

  /** `readLatestPlan`: the latest answer, cleaned and cut to the display
      limit, or the reason there is none. */
  function ReadLatestPlan(page: ChatPage): (r: PlanResult)
    ensures page.NoChatSection? ==> r == PlanError(ChatSectionMissing)
    ensures page.ChatFault? ==> r == PlanError(page.message)
    ensures page.ChatSection? ==> (r.PlanFound? <==> LatestMessageText(page.messages, page.divs) != "")
    ensures page.ChatSection? && r.PlanError? ==> r.error == NoAIMessages
    ensures r.PlanFound? ==> |r.plan| <= PlanLimit + |PlanTruncationSuffix|
  {
    match page
    case NoChatSection => PlanError(ChatSectionMissing)
    case ChatFault(message) => PlanError(message)
    case ChatSection(msgs, divs) =>
      var text := LatestMessageText(msgs, divs);
      if text != "" then
        var clean := CleanMessageText(text);
        PlanFound(Truncate(clean, PlanLimit, PlanTruncationSuffix))
      else PlanError(NoAIMessages)
  }

  /** The latest primary candidate is the last qualifying message. */
  lemma LatestIsLastQualifying(msgs: seq<MessageDiv>, p: nat)
    requires p < |msgs| && PrimaryText(msgs[p]).Some?
    requires forall q :: p < q < |msgs| ==> PrimaryText(msgs[q]).None?
    ensures |PrimaryCandidates(msgs)| > 0
    ensures Latest(PrimaryCandidates(msgs)).text == Trim(msgs[p].markdown.value)
  {
    var cs := PrimaryCandidates(msgs);
    var j :| 0 <= j < |cs| && cs[j].domPosition == p;
    LatestOfIncreasing(cs);
    var last := cs[|cs| - 1];
    assert last.domPosition >= p;
    assert PrimaryText(msgs[last.domPosition]).Some?;
  }

  /** When some message passes the primary filter, the plan comes from the
      last such message in the document. */
  lemma PlanFromLastMessage(msgs: seq<MessageDiv>, divs: seq<MessageDiv>, p: nat)
    requires p < |msgs| && PrimaryText(msgs[p]).Some?
    requires forall q :: p < q < |msgs| ==> PrimaryText(msgs[q]).None?
    ensures ReadLatestPlan(ChatSection(msgs, divs))
      == PlanFound(Truncate(CleanMessageText(Trim(msgs[p].markdown.value)), PlanLimit, PlanTruncationSuffix))
  {
    LatestIsLastQualifying(msgs, p);
  }

  /** Every candidate comes from a qualifying message. */
  lemma SomeQualifies(msgs: seq<MessageDiv>)
    requires |PrimaryCandidates(msgs)| > 0
    ensures exists p :: 0 <= p < |msgs| && PrimaryText(msgs[p]).Some?
  {
    var c := PrimaryCandidates(msgs)[0];
    assert PrimaryText(msgs[c.domPosition]).Some?;
  }

  /** When no message passes the primary filter, the last Bolt `div` decides,
      whatever the length of its text; an empty text there means no plan. */
  lemma PlanFromFallback(msgs: seq<MessageDiv>, divs: seq<MessageDiv>)
    requires forall p :: 0 <= p < |msgs| ==> PrimaryText(msgs[p]).None?
    ensures FallbackText(divs).None? ==> ReadLatestPlan(ChatSection(msgs, divs)) == PlanError(NoAIMessages)
    ensures FallbackText(divs) == Some("") ==> ReadLatestPlan(ChatSection(msgs, divs)) == PlanError(NoAIMessages)
    ensures FallbackText(divs).Some? && FallbackText(divs).value != "" ==>
      ReadLatestPlan(ChatSection(msgs, divs))
        == PlanFound(Truncate(CleanMessageText(FallbackText(divs).value), PlanLimit, PlanTruncationSuffix))
  {
    if |PrimaryCandidates(msgs)| > 0 {
      SomeQualifies(msgs);
      assert false;
    }
  }
}

=== FILE: patterns.dfy ===
/** The regular expressions of the content script, each written out as a
  predicate or function over `seq<char>`.

  An expression used with `test` is given in its anchored form `…At(s, i)`
  ("matches starting at index `i`") and searched with `Text.Test`. Every
  quantifier below is followed by a character it cannot consume, so the
  greedy (maximal) run is the only one that can lead to a match; the
  predicates therefore need no backtracking.
 */
module Patterns {
  import opened Text

  predicate NotStar(c: char) { c != '*' }
  predicate NotBacktick(c: char) { c != '`' }

  /* ---------- word boundaries (`\b` next to a word character) ---------- */

  /** `\b` before a word character at `i`. */
  predicate WordStartsAt(s: seq<char>, i: nat) {
    i == 0 || (i <= |s| && !IsWordChar(s[i - 1]))
  }

  /** `\b` after a word character that ends at `j`. */
  predicate WordEndsAt(s: seq<char>, j: nat) {
    j >= |s| || !IsWordChar(s[j])
  }

  /** `s` starts with the lower-case ASCII word `w`, ignoring ASCII case as
      the `i` flag does outside unicode mode. */
  predicate StartsWithNoCase(s: seq<char>, w: seq<char>) {
    |w| <= |s| && Lower(s[..|w|]) == w
  }

  /* ---------- classifier patterns ---------- */

  /** `\d+\.\s*\*?\*?[A-Z]` anchored at `i`: digits, a full stop, optional
      whitespace, at most two asterisks, a capital letter ("1. **Step"). */
  predicate NumberedStepAt(s: seq<char>, i: nat) {
    i <= |s| &&
    var d := Span(s[i..], IsDigit);
    d >= 1 && i + d < |s| && s[i + d] == '.' && CapitalAfterStarsAt(s, i + d + 1)
  }

  /** `\s*\*?\*?[A-Z]` anchored at `j`. */
  predicate CapitalAfterStarsAt(s: seq<char>, j: nat) {
    j <= |s| &&
    var k := j + Span(s[j..], IsSpace);
    || (k < |s| && IsUpper(s[k]))
    || (k + 1 < |s| && s[k] == '*' && IsUpper(s[k + 1]))
    || (k + 2 < |s| && s[k] == '*' && s[k + 1] == '*' && IsUpper(s[k + 2]))
  }

  /** `\*\*[A-Z][^*]+\*\*` anchored at `i`: a bold span opening with a
      capital letter. */
  predicate BoldHeadingAt(s: seq<char>, i: nat) {
    OccursAt(s, "**", i) && i + 2 < |s| && IsUpper(s[i + 2]) &&
    var k := Span(s[i + 3..], NotStar);
    k >= 1 && OccursAt(s, "**", i + 3 + k)
  }

  /** `\.(e1|…|en)\b` anchored at `i`, for extensions that end in a letter. */
  predicate ExtensionAt(s: seq<char>, i: nat, exts: seq<seq<char>>) {
    exists n :: 0 <= n < |exts| && OccursAt(s, ['.'] + exts[n], i) && WordEndsAt(s, i + 1 + |exts[n]|)
  }

  /** One alternative of `\b(w1|…|wn)\b` with the `i` flag, at `i`. */
  predicate WordMatchAt(s: seq<char>, i: nat, w: seq<char>) {
    i + |w| <= |s| && WordStartsAt(s, i) && Lower(s[i..i + |w|]) == w && WordEndsAt(s, i + |w|)
  }

  /** `\b(w1|…|wn)\b` with the `i` flag, anchored at `i`. */
  predicate WordAt(s: seq<char>, i: nat, words: seq<seq<char>>) {
    exists n :: 0 <= n < |words| && WordMatchAt(s, i, words[n])
  }

  /** Number of matches of `` `[^`]+` `` found by a global match, which
      resumes after each match. */
  function CodeSpanCount(s: seq<char>): (n: nat)
    ensures n <= |s| / 3
    decreases |s|
  {
    if |s| == 0 then 0
    else if s[0] == '`' then
      var k := Span(s[1..], NotBacktick);
      if k >= 1 && 1 + k < |s| then 1 + CodeSpanCount(s[k + 2..]) else CodeSpanCount(s[1..])
    else CodeSpanCount(s[1..])
  }

  /** `^[A-Z][a-z\s]+$`: a capitalised label such as "Open file". */
  predicate IsCapitalisedLabel(s: seq<char>) {
    |s| >= 2 && IsUpper(s[0]) && forall i :: 1 <= i < |s| ==> IsLower(s[i]) || IsSpace(s[i])
  }

  /* ---------- file names ---------- */

  /** The class `[a-zA-Z0-9._\-\/\\]`. */
  predicate IsFileNameChar(c: char) {
    IsAlpha(c) || IsDigit(c) || c == '.' || c == '_' || c == '-' || c == '/' || c == '\\'
  }

  /** `^[a-zA-Z0-9._\-\/\\]+$`. */
  predicate IsFileNameText(s: seq<char>) {
    |s| >= 1 && forall i :: 0 <= i < |s| ==> IsFileNameChar(s[i])
  }

  /* ---------- exclusion patterns ---------- */

  /** The anchored shell-command patterns `^rm -rf`, `^npm (install|run|start)`,
      `^yarn (install|start)`, `^cd \w+`, `^mkdir`, `^cp ` and `^mv `. */
  predicate StartsWithCommand(t: seq<char>) {
    || StartsWith(t, "rm -rf")
    || StartsWith(t, "npm install") || StartsWith(t, "npm run") || StartsWith(t, "npm start")
    || StartsWith(t, "yarn install") || StartsWith(t, "yarn start")
    || (StartsWith(t, "cd ") && |t| > 3 && IsWordChar(t[3]))
    || StartsWith(t, "mkdir")
    || StartsWith(t, "cp ")
    || StartsWith(t, "mv ")
  }

  /** `\s+` at `j` followed by the literal `lit`, which starts with a
      non-space character. */
  predicate SpacedLiteralAt(s: seq<char>, j: nat, lit: seq<char>) {
    j <= |s| &&
    var k := j + Span(s[j..], IsSpace);
    k > j && OccursAt(s, lit, k)
  }

  /** Index just after the literal of a `SpacedLiteralAt` match. */
  function SpacedLiteralEnd(s: seq<char>, j: nat, lit: seq<char>): nat
    requires j <= |s|
  {
    j + Span(s[j..], IsSpace) + |lit|
  }

  /** `\s+&&\s+rm\s+-rf` anchored at `i`. */
  predicate ChainedRemoveAt(s: seq<char>, i: nat) {
    SpacedLiteralAt(s, i, "&&") &&
    var a := SpacedLiteralEnd(s, i, "&&");
    SpacedLiteralAt(s, a, "rm") &&
    var b := SpacedLiteralEnd(s, a, "rm");
    SpacedLiteralAt(s, b, "-rf")
  }

  /** Any of the eight shell-command patterns. */
  predicate IsShellCommand(t: seq<char>) {
    StartsWithCommand(t) || Test(t, ChainedRemoveAt)
  }

  predicate IsBinaryChar(c: char) { c == '0' || c == '1' || IsSpace(c) }

  /** `^[01\s]+$`. */
  predicate IsBinaryText(s: seq<char>) {
    |s| >= 1 && forall i :: 0 <= i < |s| ==> IsBinaryChar(s[i])
  }

  /* ---------- message clean-up ---------- */

  /** `s.replace(/\s+/g, ' ')`: every maximal run of whitespace becomes one
      space. */
  function CollapseSpaces(s: seq<char>): (r: seq<char>)
    ensures |r| <= |s|
    ensures |r| == 0 <==> |s| == 0
    ensures |r| > 0 ==> (IsSpace(r[0]) <==> IsSpace(s[0]))
    ensures forall i :: 0 <= i < |r| && IsSpace(r[i]) ==> r[i] == ' '
    ensures forall i :: 0 <= i < |r| - 1 ==> !(IsSpace(r[i]) && IsSpace(r[i + 1]))
    ensures Keep(r, NotSpace) == Keep(s, NotSpace)
    decreases |s|
  {
    if |s| == 0 then []
    else if IsSpace(s[0]) then
      var n := Span(s, IsSpace);
      var rest := CollapseSpaces(s[n..]);
      KeepSpacePrefix(s, n);
      [' '] + rest
    else
      [s[0]] + CollapseSpaces(s[1..])
  }

  /** The same replacement read one character at a time, left to right: a
      whitespace character becomes a space when it opens a run and vanishes
      when it continues one (`afterSpace`); any other character is kept. */
  function SqueezeSpaces(s: seq<char>, afterSpace: bool): seq<char> {
    if |s| == 0 then []
    else if IsSpace(s[0]) then (if afterSpace then [] else [' ']) + SqueezeSpaces(s[1..], true)
    else [s[0]] + SqueezeSpaces(s[1..], false)
  }

  /** Inside a run, the rest of the run contributes nothing. */
  lemma {:induction false} SqueezeRun(t: seq<char>, m: nat)
    requires m <= |t|
    requires forall i :: 0 <= i < m ==> IsSpace(t[i])
    ensures SqueezeSpaces(t, true) == SqueezeSpaces(t[m..], true)
  {
    if m > 0 {
      SqueezeRun(t[1..], m - 1);
      assert t[1..][m - 1..] == t[m..];
    }
  }

  /** Collapsing runs at once and squeezing character by character agree:
      each whitespace run of `s` becomes exactly one space, in place. */
  lemma {:induction false} CollapseSpacesScan(s: seq<char>)
    ensures CollapseSpaces(s) == SqueezeSpaces(s, false)
    decreases |s|
  {
    if |s| > 0 {
      if IsSpace(s[0]) {
        var n := Span(s, IsSpace);
        SqueezeRun(s[1..], n - 1);
        assert s[1..][n - 1..] == s[n..];
        CollapseSpacesScan(s[n..]);
        if n < |s| {
          assert s[n..][0] == s[n] && !IsSpace(s[n]);
        }
      } else {
        CollapseSpacesScan(s[1..]);
      }
    }
  }

  predicate IsLabelChar(c: char) { IsWordChar(c) || IsSpace(c) }
  predicate IsColonOrSpace(c: char) { c == ':' || IsSpace(c) }

  /** Length of the prefix that `^\s*[\w\s]*:\s*` removes ("Assistant: "),
      0 when it does not match. Since `\s` is part of `[\w\s]`, the pattern
      matches exactly when the longest run of word and space characters is
      followed by a colon. */
  function LabelPrefixLength(s: seq<char>): (n: nat)
    ensures n <= |s|
    ensures n > 0 <==> Span(s, IsLabelChar) < |s| && s[Span(s, IsLabelChar)] == ':'
    ensures n > 0 ==> Span(s, IsLabelChar) < n && forall i :: Span(s, IsLabelChar) < i < n ==> IsSpace(s[i])
    ensures n > 0 ==> s[n - 1] == ':' || IsSpace(s[n - 1])
    ensures n < |s| && n > 0 ==> !IsSpace(s[n])
  {
    var k := Span(s, IsLabelChar);
    if k < |s| && s[k] == ':' then k + 1 + Span(s[k + 1..], IsSpace) else 0
  }

  /** The names `^(Bolt|AI|Assistant)` accepts, lower-cased. */
  const AssistantNames: seq<string> := ["bolt", "ai", "assistant"]

  /** `s` opens with the name `w`, in any case, and then a colon or a space. */
  predicate NameOpens(s: seq<char>, w: seq<char>) {
    StartsWithNoCase(s, w) && |w| < |s| && IsColonOrSpace(s[|w|])
  }

  /** No text opens with two of the names: they differ in their first two
      letters. */
  lemma NamesExclusive(s: seq<char>)
    ensures StartsWithNoCase(s, "bolt") ==> !StartsWithNoCase(s, "ai") && !StartsWithNoCase(s, "assistant")
    ensures StartsWithNoCase(s, "ai") ==> !StartsWithNoCase(s, "assistant")
  {
    if |s| >= 2 {
      assert Lower(s[..2])[0] == LowerChar(s[0]) && Lower(s[..2])[1] == LowerChar(s[1]);
      if |s| >= 4 {
        assert Lower(s[..4])[0] == LowerChar(s[0]);
      }
      if |s| >= 9 {
        assert Lower(s[..9])[0] == LowerChar(s[0]) && Lower(s[..9])[1] == LowerChar(s[1]);
      }
    }
  }

  /** Length of the prefix that `^(Bolt|AI|Assistant)[:\s]+` with the `i`
      flag removes, 0 when it does not match. The names are tried in order,
      but at most one of them can open a text. */
  function NamePrefixLength(s: seq<char>): (n: nat)
    ensures n <= |s|
    ensures n > 0 <==> exists j :: 0 <= j < |AssistantNames| && NameOpens(s, AssistantNames[j])
    ensures forall j :: 0 <= j < |AssistantNames| && NameOpens(s, AssistantNames[j]) ==>
      |AssistantNames[j]| < n && forall i :: |AssistantNames[j]| <= i < n ==> IsColonOrSpace(s[i])
    ensures n > 0 ==> n >= 3 && IsColonOrSpace(s[n - 1])
    ensures n < |s| && n > 0 ==> !IsColonOrSpace(s[n])
  {
    NamesExclusive(s);
    var w := if StartsWithNoCase(s, "bolt") then 4
             else if StartsWithNoCase(s, "ai") then 2
             else if StartsWithNoCase(s, "assistant") then 9
             else 0;
    if w == 0 then 0
    else
      var j := if w == 4 then 0 else if w == 2 then 1 else 2;
      assert |AssistantNames[j]| == w && StartsWithNoCase(s, AssistantNames[j]);
      var k := Span(s[w..], IsColonOrSpace);
      if k >= 1 then
        assert s[w..][0] == s[w] && NameOpens(s, AssistantNames[j]);
        w + k
      else 0
  }
}

=== FILE: projectcode.dfy ===
/** `readProjectCode` and `getCurrentFileContent`: reading every listed file
  through the code editor, filtering what was read, and compiling the report.

  The reader's `isReading` / `currentOperation` pair is a `ContentState`. Each
  file's button is already reduced to what clicking it yields (`FileProbe`),
  so the waits between clicks disappear and the loop becomes a fold.
 */
module ProjectCode {
  import opened Text
  import opened Exclusion
  import opened FileTree

  /* ---------- the reading state ---------- */

  /** `isReading` and `currentOperation`; both start out unset, which the
      status reply reports as `false` and `null`. */
  datatype ContentState = ContentState(isReading: bool, currentOperation: Option<string>)

  const Idle: ContentState := ContentState(false, None)
  const Reading: ContentState := ContentState(true, Some("readProjectCode"))

  /** The two states the reader moves between: reading with its operation
      named, or idle with none. */
  predicate WellFormed(s: ContentState) {
    s == Idle || s == Reading
  }

  /* ---------- getCurrentFileContent ---------- */

  /** A strategy's text counts when it is there and not blank. */
  predicate UsableText(t: Option<string>) {
    t.Some? && |Trim(t.value)| > 0
  }

  /** `texts[i]` is the first usable strategy text. */
  predicate FirstUsableText(texts: seq<Option<string>>, i: int) {
    0 <= i < |texts| && UsableText(texts[i]) && forall j :: 0 <= j < i ==> !UsableText(texts[j])
  }

  /** `getCurrentFileContent`: the trimmed text of the first editor strategy
      that yields non-blank text; a strategy that throws yields nothing. */
  function EditorContent(texts: seq<Option<string>>): (r: Option<string>)
    ensures r.None? <==> forall i :: 0 <= i < |texts| ==> !UsableText(texts[i])
    ensures r.Some? ==> exists i :: FirstUsableText(texts, i) && r.value == Trim(texts[i].value)
    ensures r.Some? ==> |r.value| > 0
  {
    var k := FirstUsableTextFrom(texts, 0);
    if k < |texts| then
      assert FirstUsableText(texts, k);
      Some(Trim(texts[k].value))
    else None
  }

  /** Index of the first usable text from `i` on, or the number of texts. */
  function FirstUsableTextFrom(texts: seq<Option<string>>, i: nat): (k: nat)
    requires i <= |texts|
    ensures i <= k <= |texts|
    ensures k < |texts| ==> UsableText(texts[k])
    ensures forall j :: i <= j < k ==> !UsableText(texts[j])
    decreases |texts| - i
  {
    if i == |texts| || UsableText(texts[i]) then i else FirstUsableTextFrom(texts, i + 1)
  }

  /** The editor's content is already trimmed, so the filter sees exactly
      what is stored. */
  lemma EditorContentTrimmed(texts: seq<Option<string>>)
    requires EditorContent(texts).Some?
    ensures Trim(EditorContent(texts).value) == EditorContent(texts).value
  {
    var i :| FirstUsableText(texts, i) && EditorContent(texts).value == Trim(texts[i].value);
    TrimIdempotent(texts[i].value);
  }

  /* ---------- one file ---------- */

  /** What happens to one file of the loop. */
  datatype Disposition =
    | Stored(content: string)     // read and kept
    | Excluded                    // read, but the content filter rejected it
    | NoContent                   // opened, but no editor strategy had text
    | CannotAccess                // no clickable element
    | ReadError(message: string)  // an exception while opening or reading

  /** The body of the loop for one file. */
  function ReadFile(probe: FileProbe): Disposition {
    match probe
    case Unclickable => CannotAccess
    case Threw(message) => ReadError(message)
    case Opened(texts) =>
      match EditorContent(texts)
      case None => NoContent
      case Some(content) =>
        if |content| > 0 then
          if !ShouldExcludeContent(content) then Stored(content) else Excluded
        else NoContent
  }

  /** A file is stored exactly when its editor shows non-blank text that the
      content filter accepts, and what is stored is that text, trimmed. */
  lemma ReadFileStored(probe: FileProbe)
    ensures ReadFile(probe).Stored? <==>
      probe.Opened? && EditorContent(probe.editorTexts).Some? && !ShouldExcludeContent(EditorContent(probe.editorTexts).value)
    ensures ReadFile(probe).Stored? ==>
      ReadFile(probe).content == EditorContent(probe.editorTexts).value && |ReadFile(probe).content| > 0
    ensures ReadFile(probe).Excluded? <==>
      probe.Opened? && EditorContent(probe.editorTexts).Some? && ShouldExcludeContent(EditorContent(probe.editorTexts).value)
  {
  }

  /** The entry a failed file leaves in `errors`. */
  function ErrorMessage(name: string, d: Disposition): Option<string> {
    match d
    case NoContent => Some("No content found for " + name)
    case CannotAccess => Some("Cannot access " + name)
    case ReadError(message) => Some("Error reading " + name + ": " + message)
    case _ => None
  }

  /* ---------- the insertion-ordered map ---------- */

  /** A JavaScript `Map` from file name to content: its entries in insertion
      order. */
  type ContentMap = seq<(string, string)>

  function Keys(m: ContentMap): set<string> {
    set i | 0 <= i < |m| :: m[i].0
  }

  predicate DistinctKeys(m: ContentMap) {
    forall i, j :: 0 <= i < j < |m| ==> m[i].0 != m[j].0
  }

  /** `m.set(k, v)`: a new key goes last, an existing key keeps its place and
      takes the new value. */
  function Put(m: ContentMap, k: string, v: string): (r: ContentMap)
    requires DistinctKeys(m)
    ensures DistinctKeys(r)
    ensures Keys(r) == Keys(m) + {k}
    ensures |r| == if k in Keys(m) then |m| else |m| + 1
    ensures exists i :: 0 <= i < |r| && r[i] == (k, v)
    ensures forall i :: 0 <= i < |r| && r[i].0 != k ==> i < |m| && r[i] == m[i]
    ensures forall i :: 0 <= i < |r| && r[i].0 == k ==> r[i].1 == v
    ensures forall i :: 0 <= i < |m| ==> r[i].0 == m[i].0
    ensures k !in Keys(m) ==> r[|m|] == (k, v)
  {
    if k in Keys(m) then
      var i :| 0 <= i < |m| && m[i].0 == k;
      var r := m[i := (k, v)];
      assert forall j :: 0 <= j < |m| ==> r[j].0 == m[j].0;
      assert Keys(r) == Keys(m) by {
        forall y | y in Keys(m) ensures y in Keys(r) {
          var j :| 0 <= j < |m| && m[j].0 == y;
          assert r[j].0 == y;
        }
      }
      r
    else
      var r := m + [(k, v)];
      assert forall j :: 0 <= j < |m| ==> r[j] == m[j] && m[j].0 in Keys(m);
      assert r[|m|] == (k, v);
      assert Keys(r) == Keys(m) + {k} by {
        forall y | y in Keys(m) ensures y in Keys(r) {
          var j :| 0 <= j < |m| && m[j].0 == y;
          assert r[j].0 == y;
        }
      }
      r
  }

  /* ---------- the loop ---------- */

  /** `fileContents`, `errors` and `successCount` after some files. */
  datatype Tally = Tally(contents: ContentMap, errors: seq<string>, successCount: nat)

  /** One turn of the loop, for the file `name` whose reading ended in `d`. */
  function Step(t: Tally, name: string, d: Disposition): (r: Tally)
    requires DistinctKeys(t.contents)
    ensures r.successCount == t.successCount + (if IsStored(d) then 1 else 0)
    ensures |r.errors| == |t.errors| + (if IsFailed(d) then 1 else 0)
    ensures !IsStored(d) ==> r.contents == t.contents
    ensures IsStored(d) ==> r.contents == Put(t.contents, name, d.content)
    ensures IsFailed(d) ==> ErrorMessage(name, d).Some? && r.errors == t.errors + [ErrorMessage(name, d).value]
    ensures !IsFailed(d) ==> r.errors == t.errors
  {
    if d.Stored? then Tally(Put(t.contents, name, d.content), t.errors, t.successCount + 1)
    else match ErrorMessage(name, d)
      case Some(e) => Tally(t.contents, t.errors + [e], t.successCount)
      case None => t
  }

  predicate IsStored(d: Disposition) { d.Stored? }
  predicate IsFailed(d: Disposition) { d.NoContent? || d.CannotAccess? || d.ReadError? }
  predicate IsExcluded(d: Disposition) { d.Excluded? }

  /** Number of files whose disposition satisfies `P`. */
  function CountFiles(files: seq<FileEntry>, P: Disposition -> bool): (n: nat)
    ensures n <= |files|
  {
    if |files| == 0 then 0
    else CountFiles(files[..|files| - 1], P) + (if P(ReadFile(files[|files| - 1].probe)) then 1 else 0)
  }

  /** The names of the files satisfying `P`. */
  function NamesWhere(files: seq<FileEntry>, P: FileEntry -> bool): set<string> {
    set i | 0 <= i < |files| && P(files[i]) :: files[i].name
  }

  predicate IsStoredFile(f: FileEntry) { ReadFile(f.probe).Stored? }

  /** The names of the files that were stored. */
  function StoredNames(files: seq<FileEntry>): set<string> {
    NamesWhere(files, IsStoredFile)
  }

  /** `entry` is what some file of `files` stored under its name. */
  ghost predicate StoredFrom(files: seq<FileEntry>, entry: (string, string)) {
    exists j :: 0 <= j < |files| && files[j].name == entry.0 && ReadFile(files[j].probe) == Stored(entry.1)
  }

  /** The loop over all files. Every file is visited (there is no early
      exit); each either counts as a success, adds one error, or is silently
      excluded; the map holds exactly the stored names, each with content
      the filter accepted. */
  function ReadAll(files: seq<FileEntry>): (t: Tally)
    ensures DistinctKeys(t.contents)
    ensures t.successCount == CountFiles(files, IsStored)
    ensures |t.errors| == CountFiles(files, IsFailed)
    ensures Keys(t.contents) == StoredNames(files)
    ensures |t.contents| <= t.successCount
    ensures forall i :: 0 <= i < |t.contents| ==> StoredFrom(files, t.contents[i])
    ensures t.errors == ErrorsOf(files)
  {
    if |files| == 0 then Tally([], [], 0)
    else
      var n := |files| - 1;
      var prev := ReadAll(files[..n]);
      var t := Step(prev, files[n].name, ReadFile(files[n].probe));
      StepFacts(files, prev);
      t
  }

  /** The messages of the failed files, in file order: "No content found
      for …", "Cannot access …" or "Error reading …: …". */
  function ErrorsOf(files: seq<FileEntry>): (es: seq<string>)
    ensures |es| <= |files|
  {
    if |files| == 0 then []
    else
      var n := |files| - 1;
      ErrorsOf(files[..n]) + match ErrorMessage(files[n].name, ReadFile(files[n].probe))
        case Some(e) => [e]
        case None => []
  }

  /** The keys of a map in insertion order. */
  function KeySeq(m: ContentMap): (ks: seq<string>)
    ensures |ks| == |m| && forall i :: 0 <= i < |m| ==> ks[i] == m[i].0
  {
    seq(|m|, i requires 0 <= i < |m| => m[i].0)
  }

  /** The names of the stored files in the order they were first stored,
      each once. */
  function StoredOrder(files: seq<FileEntry>): seq<string> {
    if |files| == 0 then []
    else
      var n := |files| - 1;
      var front := StoredOrder(files[..n]);
      if IsStoredFile(files[n]) && files[n].name !in front then front + [files[n].name] else front
  }

  /** `Map.set` keeps the keys in order: a new key goes last, an existing
      one stays where it was. */
  lemma PutKeySeq(m: ContentMap, k: string, v: string)
    requires DistinctKeys(m)
    ensures KeySeq(Put(m, k, v)) == if k in Keys(m) then KeySeq(m) else KeySeq(m) + [k]
  {
  }

  /** The map lists its keys in the order their files were first stored,
      which is the order of the report's file list and sections. */
  lemma {:induction false} KeysInStoreOrder(files: seq<FileEntry>)
    ensures KeySeq(ReadAll(files).contents) == StoredOrder(files)
  {
    if |files| > 0 {
      var n := |files| - 1;
      var prev := ReadAll(files[..n]);
      KeysInStoreOrder(files[..n]);
      var d := ReadFile(files[n].probe);
      assert ReadAll(files) == Step(prev, files[n].name, d);
      KeySeqStep(prev, files[n].name, d);
    }
  }

  /** One turn of the loop appends the file's name to the key order when it
      is stored under a new name, and leaves the order alone otherwise. */
  lemma KeySeqStep(t: Tally, name: string, d: Disposition)
    requires DistinctKeys(t.contents)
    ensures KeySeq(Step(t, name, d).contents) ==
      if IsStored(d) && name !in KeySeq(t.contents) then KeySeq(t.contents) + [name] else KeySeq(t.contents)
  {
    if IsStored(d) {
      PutKeySeq(t.contents, name, d.content);
      assert name in KeySeq(t.contents) <==> name in Keys(t.contents);
    }
  }

  /** The `for` loop as written, one file per turn; it computes the fold. */
  method ReadFiles(files: seq<FileEntry>) returns (t: Tally)
    ensures t == ReadAll(files)
    ensures t.successCount == CountFiles(files, IsStored)
    ensures |t.errors| == CountFiles(files, IsFailed)
    ensures Keys(t.contents) == StoredNames(files)
  {
    t := Tally([], [], 0);
    var i := 0;
    while i < |files|
      invariant 0 <= i <= |files|
      invariant t == ReadAll(files[..i])
    {
      assert files[..i + 1][..i] == files[..i];
      assert files[..i + 1][i] == files[i];
      t := Step(t, files[i].name, ReadFile(files[i].probe));
      i := i + 1;
    }
    assert files[..|files|] == files;
  }

  lemma StepFacts(files: seq<FileEntry>, prev: Tally)
    requires |files| > 0
    requires DistinctKeys(prev.contents)
    requires Keys(prev.contents) == StoredNames(files[..|files| - 1])
    requires |prev.contents| <= prev.successCount
    requires forall i :: 0 <= i < |prev.contents| ==> StoredFrom(files[..|files| - 1], prev.contents[i])
    ensures var t := Step(prev, files[|files| - 1].name, ReadFile(files[|files| - 1].probe));
      && Keys(t.contents) == StoredNames(files)
      && |t.contents| <= t.successCount
      && forall i :: 0 <= i < |t.contents| ==> StoredFrom(files, t.contents[i])
  {
    NamesWhereStep(files, IsStoredFile);
    StepStoredFrom(files, prev);
  }

  lemma StepStoredFrom(files: seq<FileEntry>, prev: Tally)
    requires |files| > 0
    requires DistinctKeys(prev.contents)
    requires forall i :: 0 <= i < |prev.contents| ==> StoredFrom(files[..|files| - 1], prev.contents[i])
    ensures var t := Step(prev, files[|files| - 1].name, ReadFile(files[|files| - 1].probe));
      forall i :: 0 <= i < |t.contents| ==> StoredFrom(files, t.contents[i])
  {
    var n := |files| - 1;
    var f := files[n];
    var front := files[..n];
    var d := ReadFile(f.probe);
    var t := Step(prev, f.name, d);
    forall e | StoredFrom(front, e) ensures StoredFrom(files, e) {
      var j :| 0 <= j < |front| && front[j].name == e.0 && ReadFile(front[j].probe) == Stored(e.1);
      assert files[j] == front[j];
    }
    forall i | 0 <= i < |t.contents| ensures StoredFrom(files, t.contents[i]) {
      if d.Stored? && t.contents[i].0 == f.name {
        assert files[n].name == t.contents[i].0 && ReadFile(files[n].probe) == Stored(t.contents[i].1);
      } else {
        assert t.contents[i] == prev.contents[i];
      }
    }
  }

  lemma NamesWhereStep(files: seq<FileEntry>, P: FileEntry -> bool)
    requires |files| > 0
    ensures NamesWhere(files, P)
      == NamesWhere(files[..|files| - 1], P) + if P(files[|files| - 1]) then {files[|files| - 1].name} else {}
  {
    var n := |files| - 1;
    var front := files[..n];
    assert forall i :: 0 <= i < n ==> front[i] == files[i];
  }

  /** Everything stored is non-empty text the content filter accepts. */
  lemma StoredContentAccepted(files: seq<FileEntry>)
    ensures forall i :: 0 <= i < |ReadAll(files).contents| ==>
      var v := ReadAll(files).contents[i].1; |v| > 0 && !ShouldExcludeContent(v)
  {
    var m := ReadAll(files).contents;
    forall i | 0 <= i < |m| ensures |m[i].1| > 0 && !ShouldExcludeContent(m[i].1) {
      var j :| 0 <= j < |files| && files[j].name == m[i].0 && ReadFile(files[j].probe) == Stored(m[i].1);
      ReadFileStored(files[j].probe);
    }
  }

  /** Each file is a success, a failure or an exclusion, so the three counts
      add up to the number of files. */
  lemma {:induction false} Partition(files: seq<FileEntry>)
    ensures CountFiles(files, IsStored) + CountFiles(files, IsFailed)
      + CountFiles(files, IsExcluded) == |files|
  {
    if |files| > 0 {
      Partition(files[..|files| - 1]);
    }
  }

  /** With distinct file names, as the file list guarantees, no entry of the
      map is overwritten: the number of files found is the success count. */
  lemma {:induction false} DistinctNamesNoOverwrite(files: seq<FileEntry>)
    requires DistinctNames(files)
    ensures |ReadAll(files).contents| == ReadAll(files).successCount
  {
    if |files| > 0 {
      var n := |files| - 1;
      var front := files[..n];
      assert forall i :: 0 <= i < n ==> front[i] == files[i];
      assert DistinctNames(front);
      DistinctNamesNoOverwrite(front);
      var prev := ReadAll(front);
      var d := ReadFile(files[n].probe);
      assert ReadAll(files) == Step(prev, files[n].name, d);
      if d.Stored? {
        assert forall i :: 0 <= i < n ==> front[i].name != files[n].name;
        assert files[n].name !in Keys(prev.contents);
        assert |ReadAll(files).contents| == |prev.contents| + 1;
      } else {
        assert ReadAll(files).contents == prev.contents;
      }
    }
  }

  /* ---------- the report ---------- */

  /** `'='.repeat(50)`. */
  function Rule(): string { Repeat('=', 50) }

  /** `parts.join('\n')`. */
  function JoinLines(parts: seq<string>): string {
    if |parts| == 0 then "" else Join(parts, '\n')
  }

  /** The `📁 FILES:` list: one indented line per file. */
  function FileLines(m: ContentMap): string {
    if |m| == 0 then "" else "  - " + m[0].0 + "\n" + FileLines(m[1..])
  }

  /** The section of one file: a rule, its name, a rule, its content. */
  function FileSection(name: string, content: string): string {
    "\n" + Rule() + "\n" + "\U{1F4C4} FILE: " + name + "\n" + Rule() + "\n" + content + "\n"
  }

  function FileSections(m: ContentMap): string {
    if |m| == 0 then "" else FileSection(m[0].0, m[0].1) + FileSections(m[1..])
  }

  /** The heading and the file list. */
  function ReportHead(t: Tally): string {
    "=== PROJECT CODE (" + NatToString(|t.contents|) + " files) ===\n\n"
    + "\U{1F4C1} FILES:\n" + FileLines(t.contents) + "\n"
  }

  /** The summary up to and including the error count. */
  function ReportSummary(t: Tally): string {
    "\n" + Rule() + "\n"
    + "\U{1F4CA} SUMMARY:\n"
    + "\U{2705} Successfully read: " + NatToString(t.successCount) + " files\n"
    + "\U{274C} Errors: " + NatToString(|t.errors|) + " files\n"
  }

  /** The report up to and including the error count. */
  function ReportBody(t: Tally): string {
    ReportHead(t) + FileSections(t.contents) + ReportSummary(t)
  }

  /** What follows the body: its own length in UTF-16 units, counted before
      this line is added, and the error list when there are errors. */
  function ReportTail(t: Tally): string {
    "\U{1F4CA} Total characters: " + NatToString(Utf16Length(ReportBody(t))) + "\n"
    + if |t.errors| > 0 then "\n\U{26A0}\U{FE0F} ERRORS:\n" + JoinLines(t.errors) + "\n" else ""
  }

  function Report(t: Tally): string {
    ReportBody(t) + ReportTail(t)
  }

  const MaxReportLength: nat := 15000

  function TruncationNote(fileCount: nat): string {
    "\n\n...(truncated - showing first 15000 characters)\n\nTotal files: " + NatToString(fileCount)
  }

  /** The section of every stored file appears in the section list. */
  lemma {:induction false} SectionListed(m: ContentMap, i: nat)
    requires i < |m|
    ensures exists k :: 0 <= k && OccursAt(FileSections(m), FileSection(m[i].0, m[i].1), k)
  {
    var head := FileSection(m[0].0, m[0].1);
    var rest := FileSections(m[1..]);
    assert FileSections(m) == head + rest;
    if i == 0 {
      assert OccursAt(FileSections(m), head, 0) by {
        assert FileSections(m)[0..|head|] == head;
      }
    } else {
      SectionListed(m[1..], i - 1);
      assert m[1..][i - 1] == m[i];
      var p := FileSection(m[i].0, m[i].1);
      var k :| 0 <= k && OccursAt(rest, p, k);
      OccursIn(head, rest, [], p, k);
      assert head + rest + [] == FileSections(m);
    }
  }

  /** An occurrence in `s` is an occurrence in `a + s + b`, shifted by `|a|`. */
  lemma OccursIn(a: string, s: string, b: string, p: string, k: nat)
    requires OccursAt(s, p, k)
    ensures OccursAt(a + s + b, p, |a| + k)
  {
    assert (a + s + b)[|a| + k..|a| + k + |p|] == s[k..k + |p|];
  }

  /** An occurrence in `s` is an occurrence in `s + b`. */
  lemma OccursBefore(s: string, b: string, p: string, k: nat)
    requires OccursAt(s, p, k)
    ensures OccursAt(s + b, p, k)
  {
    assert (s + b)[k..k + |p|] == s[k..k + |p|];
  }

  /** Every stored file's name and content appear, in their own section, in
      the untruncated report. */
  lemma ReportHasEverySection(t: Tally, i: nat)
    requires i < |t.contents|
    ensures Contains(Report(t), FileSection(t.contents[i].0, t.contents[i].1))
  {
    var p := FileSection(t.contents[i].0, t.contents[i].1);
    var sections := FileSections(t.contents);
    SectionListed(t.contents, i);
    var k :| 0 <= k && OccursAt(sections, p, k);
    var head := ReportHead(t);
    OccursIn(head, sections, ReportSummary(t), p, k);
    OccursBefore(ReportBody(t), ReportTail(t), p, |head| + k);
    ContainsAt(Report(t), p, |head| + k);
  }

  /* ---------- readProjectCode ---------- */

  /** What the file tree yields: the candidates, or an exception that escapes
      the per-file handling (finding the files, showing progress). */
  datatype Listing = Listed(discovery: Discovery) | ListingFault(message: string)

  /** What `readProjectCode` sends back. */
  datatype CodeResult =
    | CodeRead(code: string, filesFound: nat, totalFiles: nat)
    | CodeError(error: string)

  const NoFilesFound: string :=
    "No files found. Please ensure you have a project open in bolt.new and the file tree is visible."

  function FailureMessage(errors: seq<string>, attempted: nat): string {
    "Failed to read any files.\n\nErrors encountered:\n" + JoinLines(errors) + "\n\nTotal files attempted: " + NatToString(attempted)
  }

  /** `readProjectCode`: the reply and the reading state it leaves behind. */
  function ReadProjectCode(listing: Listing): (r: (CodeResult, ContentState))
    ensures WellFormed(r.1)
    ensures r.1 == Reading <==> listing.Listed? && GetFileElements(listing.discovery) == []
    ensures listing.ListingFault? ==> r.0 == CodeError("Critical error: " + listing.message)
    ensures r.0.CodeRead? ==> (
      && listing.Listed?
      && 1 <= r.0.filesFound <= r.0.totalFiles
      && r.0.totalFiles == |GetFileElements(listing.discovery)|
      && |r.0.code| <= MaxReportLength + |TruncationNote(r.0.filesFound)|)
    ensures listing.Listed? && GetFileElements(listing.discovery) == [] ==> r.0 == CodeError(NoFilesFound)
    ensures listing.Listed? && GetFileElements(listing.discovery) != [] ==>
      r.0 == ReadListed(GetFileElements(listing.discovery))
  {
    match listing
    case ListingFault(message) => (CodeError("Critical error: " + message), Idle)
    case Listed(d) =>
      var files := GetFileElements(d);
      if |files| == 0 then (CodeError(NoFilesFound), Reading)
      else (ReadListed(files), Idle)
  }

  /** The reply once the loop has left `t` behind: the report, cut to
      15000 characters plus the note, when some file was stored; the
      collected errors otherwise. */
  function Reply(t: Tally, total: nat): (r: CodeResult)
    ensures r.CodeRead? <==> |t.contents| > 0
    ensures r.CodeRead? ==> r.filesFound == |t.contents| && r.totalFiles == total
    ensures r.CodeRead? ==> |r.code| <= MaxReportLength + |TruncationNote(r.filesFound)|
    ensures r.CodeRead? ==>
      && (|Report(t)| <= MaxReportLength ==> r.code == Report(t))
      && (|Report(t)| > MaxReportLength ==>
            |r.code| == MaxReportLength + |TruncationNote(r.filesFound)|
            && r.code[..MaxReportLength] == Report(t)[..MaxReportLength]
            && r.code[MaxReportLength..] == TruncationNote(r.filesFound))
    ensures r.CodeError? ==> r.error == FailureMessage(t.errors, total)
  {
    if |t.contents| > 0 then
      var n := |t.contents|;
      CodeRead(Truncate(Report(t), MaxReportLength, TruncationNote(n)), n, total)
    else CodeError(FailureMessage(t.errors, total))
  }

  /** The read of a non-empty file list: the loop, then the reply. */
  function ReadListed(files: seq<FileEntry>): (r: CodeResult)
    ensures r.CodeRead? ==> 1 <= r.filesFound <= r.totalFiles
  {
    Reply(ReadAll(files), |files|)
  }

  /** The map is non-empty exactly when some file was stored. */
  lemma SomeStored(files: seq<FileEntry>)
    ensures |ReadAll(files).contents| > 0 <==> exists i :: 0 <= i < |files| && IsStoredFile(files[i])
  {
    var t := ReadAll(files);
    if exists i :: 0 <= i < |files| && IsStoredFile(files[i]) {
      var i :| 0 <= i < |files| && IsStoredFile(files[i]);
      assert files[i].name in Keys(t.contents);
    } else {
      assert Keys(t.contents) == {};
      assert |t.contents| > 0 ==> t.contents[0].0 in Keys(t.contents);
    }
  }

  /** The reader succeeds exactly when some listed file was stored, and then
      reports as found every file it stored, when the names are distinct as
      the file list makes them. */
  lemma SuccessIffStored(files: seq<FileEntry>)
    requires |files| > 0 && DistinctNames(files)
    ensures ReadListed(files).CodeRead? <==> exists i :: 0 <= i < |files| && IsStoredFile(files[i])
    ensures ReadListed(files).CodeRead? ==> ReadListed(files).filesFound == CountFiles(files, IsStored)
  {
    DistinctNamesNoOverwrite(files);
    SomeStored(files);
  }

  /** When the report fits, the reply holds the section of every stored
      file, with the content that file stored. */
  lemma ReplyHasEveryStoredFile(files: seq<FileEntry>, j: nat)
    requires DistinctNames(files) && j < |files| && IsStoredFile(files[j])
    requires |Report(ReadAll(files))| <= MaxReportLength
    ensures ReadListed(files).CodeRead?
    ensures Contains(ReadListed(files).code, FileSection(files[j].name, ReadFile(files[j].probe).content))
  {
    var t := ReadAll(files);
    var i := StoredEntry(files, j);
    ReportHasEverySection(t, i);
  }

  /** With distinct names, a stored file has its own entry in the map, with
      the content it stored. */
  lemma StoredEntry(files: seq<FileEntry>, j: nat) returns (i: nat)
    requires DistinctNames(files) && j < |files| && IsStoredFile(files[j])
    ensures i < |ReadAll(files).contents|
    ensures ReadAll(files).contents[i] == (files[j].name, ReadFile(files[j].probe).content)
  {
    var t := ReadAll(files);
    assert files[j].name in StoredNames(files);
    i :| 0 <= i < |t.contents| && t.contents[i].0 == files[j].name;
    assert StoredFrom(files, t.contents[i]);
    var j' :| 0 <= j' < |files| && files[j'].name == t.contents[i].0 && ReadFile(files[j'].probe) == Stored(t.contents[i].1);
    assert j' == j;
  }

  /** A non-empty file list is read in full. */
  lemma ListedReadsAll(d: Discovery)
    requires GetFileElements(d) != []
    ensures ReadProjectCode(Listed(d)) == (ReadListed(GetFileElements(d)), Idle)
    ensures DistinctNames(GetFileElements(d))
  {
  }

  /** An empty file list returns before the flags are cleared: the reader is
      left reporting a read in progress, whatever it was doing before. */
  lemma EmptyListingLeavesReading(d: Discovery)
    requires GetFileElements(d) == []
    ensures ReadProjectCode(Listed(d)) == (CodeError(NoFilesFound), Reading)
  {
  }
}

=== FILE: text.dfy ===
/** Characters and strings with the meaning JavaScript gives them.

  A string is a `seq<char>`. Regular expressions of the content script are
  written out as predicates over a position in the string (module `Patterns`);
  this module supplies the pieces they share: character classes, maximal
  spans, literal occurrence, the "try every start position" search, splitting,
  trimming and decimal rendering.
 */
module Text {

  datatype Option<+T> = None | Some(value: T)

  /** ASCII letter and digit classes (`[A-Z]`, `[a-z]`, `\d`). */
  predicate IsUpper(c: char) { 'A' <= c <= 'Z' }
  predicate IsLower(c: char) { 'a' <= c <= 'z' }
  predicate IsAlpha(c: char) { IsUpper(c) || IsLower(c) }
  predicate IsDigit(c: char) { '0' <= c <= '9' }

  /** `\w` outside unicode mode: `[A-Za-z0-9_]`. */
  predicate IsWordChar(c: char) { IsAlpha(c) || IsDigit(c) || c == '_' }

  /** `\s`, which is also the set `String.prototype.trim` removes:
      WhiteSpace and LineTerminator of ECMAScript. */
  predicate IsSpace(c: char) {
    || c == '\t' || c == '\n' || c == '\U{B}' || c == '\U{C}' || c == '\r' || c == ' '
    || c == '\U{A0}' || c == '\U{1680}' || ('\U{2000}' <= c <= '\U{200A}')
    || c == '\U{2028}' || c == '\U{2029}' || c == '\U{202F}' || c == '\U{205F}'
    || c == '\U{3000}' || c == '\U{FEFF}'
  }

  predicate NotSpace(c: char) { !IsSpace(c) }

  /** ASCII lower-casing of one character. */
  function LowerChar(c: char): (r: char)
    ensures IsUpper(c) ==> IsLower(r)
    ensures !IsUpper(c) ==> r == c
    ensures IsWordChar(r) <==> IsWordChar(c)
  {
    if IsUpper(c) then (c as int + 32) as char else c
  }

  /** `toLowerCase()` restricted to ASCII letters. */
  function Lower(s: seq<char>): (r: seq<char>)
    ensures |r| == |s|
    ensures forall i :: 0 <= i < |s| ==> r[i] == LowerChar(s[i])
  {
    seq(|s|, i requires 0 <= i < |s| => LowerChar(s[i]))
  }

  function UpperChar(c: char): char {
    if IsLower(c) then (c as int - 32) as char else c
  }

  function Upper(s: seq<char>): seq<char> {
    seq(|s|, i requires 0 <= i < |s| => UpperChar(s[i]))
  }

  /** Lower-casing forgets the case a string was written in. */
  lemma LowerOfUpper(s: seq<char>)
    ensures Lower(Upper(s)) == Lower(s)
  {
    var u := Upper(s);
    forall i | 0 <= i < |s|
      ensures Lower(u)[i] == Lower(s)[i]
    {
      assert u[i] == UpperChar(s[i]);
    }
  }

  /** Length of the longest prefix of `s` whose characters all satisfy `P`:
      what a greedy `[…]*` consumes. */
  function Span(s: seq<char>, P: char -> bool): (n: nat)
    ensures n <= |s|
    ensures forall i :: 0 <= i < n ==> P(s[i])
    ensures n < |s| ==> !P(s[n])
  {
    if |s| > 0 && P(s[0]) then 1 + Span(s[1..], P) else 0
  }

  /** Length of the longest suffix of `s` whose characters all satisfy `P`. */
  function SpanBack(s: seq<char>, P: char -> bool): (n: nat)
    ensures n <= |s|
    ensures forall i :: |s| - n <= i < |s| ==> P(s[i])
    ensures n < |s| ==> !P(s[|s| - 1 - n])
  {
    if |s| > 0 && P(s[|s| - 1]) then 1 + SpanBack(s[..|s| - 1], P) else 0
  }

  /** Number of characters of `s` satisfying `P`. */
  function Count(s: seq<char>, P: char -> bool): (n: nat)
    ensures n <= |s|
  {
    if |s| == 0 then 0 else (if P(s[0]) then 1 else 0) + Count(s[1..], P)
  }

  /** The characters of `s` that satisfy `P`, in order. */
  function Keep(s: seq<char>, P: char -> bool): (r: seq<char>)
    ensures |r| == Count(s, P)
  {
    if |s| == 0 then [] else (if P(s[0]) then [s[0]] else []) + Keep(s[1..], P)
  }

  lemma {:induction false} KeepAppend(a: seq<char>, b: seq<char>, P: char -> bool)
    ensures Keep(a + b, P) == Keep(a, P) + Keep(b, P)
  {
    if |a| > 0 {
      KeepAppend(a[1..], b, P);
      assert (a + b)[1..] == a[1..] + b;
    } else {
      assert a + b == b;
    }
  }

  predicate StartsWith(s: seq<char>, p: seq<char>) {
    |p| <= |s| && s[..|p|] == p
  }

  predicate IsSuffix(a: seq<char>, b: seq<char>) {
    |a| <= |b| && b[|b| - |a|..] == a
  }

  /** The literal `p` occurs in `s` starting at index `i`. */
  predicate OccursAt(s: seq<char>, p: seq<char>, i: nat) {
    i + |p| <= |s| && s[i..i + |p|] == p
  }

  /** Whether the anchored match `At` succeeds at some start index `k` with
      `i <= k <= |s|`: the way `RegExp.prototype.test` tries every position. */
  function SearchFrom(s: seq<char>, At: (seq<char>, nat) -> bool, i: nat): (b: bool)
    requires i <= |s|
    decreases |s| - i
    ensures b <==> exists k :: i <= k <= |s| && At(s, k)
  {
    if At(s, i) then true
    else if i == |s| then false
    else SearchFrom(s, At, i + 1)
  }

  /** An unanchored regular expression, given by its anchored form `At`,
      matches somewhere in `s`. */
  function Test(s: seq<char>, At: (seq<char>, nat) -> bool): (b: bool)
    ensures b <==> exists k :: 0 <= k <= |s| && At(s, k)
  {
    SearchFrom(s, At, 0)
  }

  /** `s.includes(p)`. */
  function Contains(s: seq<char>, p: seq<char>): (b: bool)
    ensures b <==> exists k :: 0 <= k && OccursAt(s, p, k)
  {
    var At := (t: seq<char>, k: nat) => OccursAt(t, p, k);
    var b := Test(s, At);
    assert (exists k :: 0 <= k && OccursAt(s, p, k)) ==> b by {
      if k :| 0 <= k && OccursAt(s, p, k) {
        assert k <= |s| && At(s, k);
      }
    }
    b
  }

  /** An occurrence at a known index is found by `Contains`. */
  lemma ContainsAt(s: seq<char>, p: seq<char>, k: nat)
    requires OccursAt(s, p, k)
    ensures Contains(s, p)
  {
  }

  /** `needles.some(n => s.includes(n))`. */
  predicate ContainsAnyOf(s: seq<char>, needles: seq<seq<char>>) {
    exists n :: 0 <= n < |needles| && Contains(s, needles[n])
  }

  /** `r` is `s` with `i` whitespace characters removed in front and only
      whitespace removed behind. */
  ghost predicate StrippedAt(s: seq<char>, r: seq<char>, i: nat) {
    && i + |r| <= |s|
    && r == s[i..i + |r|]
    && (forall k :: 0 <= k < i ==> IsSpace(s[k]))
    && (forall k :: i + |r| <= k < |s| ==> IsSpace(s[k]))
  }

  /** `s.trim()`. */
  function Trim(s: seq<char>): (r: seq<char>)
    ensures |r| <= |s|
    ensures r == [] || (!IsSpace(r[0]) && !IsSpace(r[|r| - 1]))
    ensures exists i :: StrippedAt(s, r, i)
  {
    var a := Span(s, IsSpace);
    var t := s[a..];
    var b := SpanBack(t, IsSpace);
    assert b < |t| ==> !IsSpace(t[0]) by {
      if b < |t| && a < |s| { assert t[0] == s[a]; }
    }
    var r := t[..|t| - b];
    assert StrippedAt(s, r, a);
    r
  }

  /** Trimming twice changes nothing. */
  lemma TrimIdempotent(s: seq<char>)
    ensures Trim(Trim(s)) == Trim(s)
  {
    var r := Trim(s);
    var rr := Trim(r);
    if r != [] {
      assert Span(r, IsSpace) == 0;
      assert SpanBack(r, IsSpace) == 0;
      assert r[0..][..|r|] == r;
    }
  }

  /** Whitespace-only text has no non-space characters. */
  lemma {:induction false} KeepAllSpace(s: seq<char>)
    requires forall i :: 0 <= i < |s| ==> IsSpace(s[i])
    ensures Keep(s, NotSpace) == []
  {
    if |s| > 0 {
      KeepAllSpace(s[1..]);
    }
  }

  /** Dropping a prefix keeps a suffix of the non-space characters. */
  lemma {:induction false} KeepDrop(s: seq<char>, n: nat)
    requires n <= |s|
    ensures IsSuffix(Keep(s[n..], NotSpace), Keep(s, NotSpace))
  {
    var a, b := s[..n], s[n..];
    assert a + b == s;
    KeepAppend(a, b, NotSpace);
    var ka, kb := Keep(a, NotSpace), Keep(b, NotSpace);
    assert (ka + kb)[|ka|..] == kb;
  }

  /** Trimming removes whitespace only. */
  lemma KeepTrim(s: seq<char>)
    ensures Keep(Trim(s), NotSpace) == Keep(s, NotSpace)
  {
    var r := Trim(s);
    var i: nat :| StrippedAt(s, r, i);
    KeepStripped(s, r, i);
  }

  /** Dropping a run of whitespace does not change the non-space content. */
  lemma {:induction false} KeepSpacePrefix(s: seq<char>, n: nat)
    requires n <= |s|
    requires forall i :: 0 <= i < n ==> IsSpace(s[i])
    ensures Keep(s, NotSpace) == Keep(s[n..], NotSpace)
  {
    if n > 0 {
      KeepSpacePrefix(s[1..], n - 1);
      assert s[1..][n - 1..] == s[n..];
    }
  }

  /** Dropping a run of whitespace at the end does not change the non-space
      content either. */
  lemma KeepSpaceSuffix(s: seq<char>, n: nat)
    requires n <= |s|
    requires forall i :: n <= i < |s| ==> IsSpace(s[i])
    ensures Keep(s, NotSpace) == Keep(s[..n], NotSpace)
  {
    var a, b := s[..n], s[n..];
    assert s == a + b;
    assert forall k :: 0 <= k < |b| ==> b[k] == s[n + k];
    KeepAppend(a, b, NotSpace);
    KeepAllSpace(b);
    var ka := Keep(a, NotSpace);
    assert ka + [] == ka;
  }

  lemma KeepStripped(s: seq<char>, r: seq<char>, i: nat)
    requires StrippedAt(s, r, i)
    ensures Keep(r, NotSpace) == Keep(s, NotSpace)
  {
    var m := s[i..];
    KeepSpacePrefix(s, i);
    assert r == m[..|r|];
    assert forall k :: |r| <= k < |m| ==> m[k] == s[i + k];
    KeepSpaceSuffix(m, |r|);
  }

  /** `s.split(sep)` for a one-character separator. */
  function Split(s: seq<char>, sep: char): (parts: seq<seq<char>>)
    ensures |parts| >= 1
    ensures forall i :: 0 <= i < |parts| ==> sep !in parts[i]
  {
    if |s| == 0 then [[]]
    else
      var rest := Split(s[1..], sep);
      if s[0] == sep then [[]] + rest
      else [[s[0]] + rest[0]] + rest[1..]
  }

  /** `parts.join(sep)`. */
  function Join(parts: seq<seq<char>>, sep: char): seq<char>
    requires |parts| >= 1
  {
    if |parts| == 1 then parts[0] else parts[0] + [sep] + Join(parts[1..], sep)
  }

  /** Splitting loses nothing: joining the pieces with the separator gives the
      string back. */
  lemma {:induction false} SplitJoin(s: seq<char>, sep: char)
    ensures Join(Split(s, sep), sep) == s
  {
    if |s| > 0 {
      SplitJoin(s[1..], sep);
      var rest := Split(s[1..], sep);
      if s[0] != sep && |rest| > 1 {
        assert ([s[0]] + rest[0]) + [sep] + Join(rest[1..], sep)
            == [s[0]] + (rest[0] + [sep] + Join(rest[1..], sep));
      }
    }
  }

  /** There is one more piece than separators. */
  lemma {:induction false} SplitCount(s: seq<char>, sep: char)
    ensures |Split(s, sep)| == Count(s, c => c == sep) + 1
  {
    if |s| > 0 {
      SplitCount(s[1..], sep);
    }
  }

  /** `s.length` in JavaScript: UTF-16 code units, two for a character
      outside the Basic Multilingual Plane. */
  function Utf16Length(s: seq<char>): (n: nat)
    ensures |s| <= n <= 2 * |s|
  {
    if |s| == 0 then 0 else (if s[0] as int > 0xFFFF then 2 else 1) + Utf16Length(s[1..])
  }

  /** `c.repeat(n)` for one character. */
  function Repeat(c: char, n: nat): (s: seq<char>)
    ensures |s| == n && forall i :: 0 <= i < n ==> s[i] == c
  {
    seq(n, _ => c)
  }

  function DigitChar(d: nat): (c: char)
    requires d < 10
    ensures IsDigit(c)
  {
    ('0' as int + d) as char
  }

  /** `String(n)` for a natural number: its decimal digits, no leading zero. */
  function NatToString(n: nat): (s: seq<char>)
    ensures |s| >= 1
    ensures forall i :: 0 <= i < |s| ==> IsDigit(s[i])
    ensures |s| > 1 ==> s[0] != '0'
  {
    if n < 10 then [DigitChar(n)] else NatToString(n / 10) + [DigitChar(n % 10)]
  }

  /** The number a string of decimal digits denotes. */
  function DecimalValue(s: seq<char>): nat
    requires forall i :: 0 <= i < |s| ==> IsDigit(s[i])
  {
    if |s| == 0 then 0
    else
      assert IsDigit(s[|s| - 1]);
      10 * DecimalValue(s[..|s| - 1]) + (s[|s| - 1] as int - '0' as int)
  }

  /** Rendering a number and reading it back gives the number. */
  lemma {:induction false} NatToStringValue(n: nat)
    ensures DecimalValue(NatToString(n)) == n
  {
    if n >= 10 {
      NatToStringValue(n / 10);
      var s := NatToString(n);
      assert s[..|s| - 1] == NatToString(n / 10);
    }
  }

  /** Cut `s` to its first `max` characters and append `suffix` when it is
      longer than `max`, as the content script does before display. */
  function Truncate(s: seq<char>, max: nat, suffix: seq<char>): (r: seq<char>)
    ensures |r| <= max + |suffix|
    ensures |r| <= |s| + |suffix|
    ensures |s| <= max ==> r == s
    ensures |s| > max ==> |r| == max + |suffix| && r[..max] == s[..max] && r[max..] == suffix
  {
    if |s| > max then s[..max] + suffix else s
  }
}
